=== FILE: README.md ===
# Image cache and test-taking state machine of avto-test-webview

This project models, in Dafny, the parts of the avto-test exam client that
have behaviour worth stating:

- **Compressor**: `src/utils/imageCompressor.js`. This covers the resize rule of
  `compressImage` over exact reals, the default options, the preset table, the
  options merge of `compressFromUrl`, and the integer parts of
  `getSize`/`compareSize`.
- **Service worker**: `public/service-worker.js`. This covers the image
  classifier, the purge of stale caches on activation, the cache-first fetch
  decision, and the `CLEAR_CACHE` / `CACHE_IMAGES` control messages.
- **Preloader**: `src/utils/imagePreloader.js`. This covers the preloader's state,
  the guard sequence of `preloadImage`, both load outcomes, `addToCache`,
  `setCompression`, `clear` and `getStats`. It also covers `preloadImages`, the
  30-wide batching and progress loop, written as a method with loop invariants.
- **Registration helpers**: `src/utils/serviceWorkerRegistration.js`. This covers
  `clearImageCache`, `cacheImages` and `isImageCached`.
- **Test taking**: `src/pages/student/TestTaking.jsx`. This covers the answers
  array (each slot written once), answer selection and its feedback pause,
  auto-advance and finish, the keyboard shortcuts over the two modal flags, the
  mouse handlers (answer, page, exit and image buttons), the countdown, and
  `formatTime`.

The browser's Cache Storage is an explicit value (module `CacheStorage`): a map
from cache name to a map from URL to response. `caches.open` creates a missing
cache, and the model does the same wherever the code opens the image cache.
Oracles stand in for the network, image decoding, encoding and cache failures.
An oracle is a parameter that says how the call ends. Each call and each load
completion is one atomic transition.

`CACHE_IMAGES` stores its list with `cache.addAll`, which is all-or-nothing: on
success the worker replies with `count = urls.length`, and a single failing URL
makes the whole reply a failure with nothing stored (`ServiceWorker.HandleMessage`,
`ServiceWorker.PartialBatchFails`). So a partly cached batch is never reported.
`isImageCached` is not a plain read either: it opens the image cache, which
creates the cache when it is missing (`Registration.IsImageCached`).

Files: `wrappers.dfy` (Option), `strings.dfy` (JavaScript string operations),
`arith.dfy` (division facts), `compressor.dfy`, `cache_storage.dfy`,
`service_worker.dfy`, `preloader.dfy`, `registration.dfy`, `test_taking.dfy`.

## Model

| member | source | states |
|---|---|---|
| Compressor.PresetNamed | src/utils/imageCompressor.js:175-203 | Exactly the four names HIGH_QUALITY, BALANCED, LOW_SIZE and THUMBNAIL resolve to a preset. Every preset keeps the 4:3 frame and has a quality in (0, 1]. |
| Compressor.DefaultsAreBalanced | src/utils/imageCompressor.js:8-13 | The default options carry the BALANCED preset's width, height and quality. |
| Compressor.PresetsShrink | src/utils/imageCompressor.js:175-203 | In table order, each preset has smaller bounds and lower quality than the one before. |
| Compressor.Resize | src/utils/imageCompressor.js:56-66 | The aspect ratio is kept exactly. An image within both bounds passes through unchanged. For non-negative dimensions, the result fits both bounds and never exceeds the input. |
| Compressor.FitWidth | src/utils/imageCompressor.js:58-61 | The width step keeps the aspect ratio, caps the width at maxWidth and never enlarges. |
| Compressor.FitHeight | src/utils/imageCompressor.js:63-66 | The height step keeps the aspect ratio, leaves an image within maxHeight unchanged, and otherwise caps the height at maxHeight without enlarging either side. |
| Compressor.CapSide | src/utils/imageCompressor.js:58-66 | Scaling a side by m/d with m below d multiplies back to the capped product, and a non-negative side ends between 0 and its old length. |
| Compressor.ResizeIsUniformScale | src/utils/imageCompressor.js:58-66 | Width step then height step equal one uniform scale by min(1, maxWidth/width, maxHeight/height). |
| Compressor.ScaleFactorIsLargest | src/utils/imageCompressor.js:58-66 | No factor of at most 1 that is larger than that scale makes the image fit, so the rule shrinks no more than it must. |
| Compressor.Merge | src/utils/imageCompressor.js:23 | Every key the caller gives overrides the default. Every key it leaves out keeps the default. |
| Compressor.MergeLaws | src/utils/imageCompressor.js:23 | Merging no keys gives the defaults. Merging the same keys twice equals merging them once. Re-giving the defaults changes nothing. |
| Compressor.CompressImage | src/utils/imageCompressor.js:52-91 | The canvas is asked for exactly the image `Resize` gives for the options' bounds, which fits them and keeps the aspect ratio. It uses the options' quality and the options' format, or PNG when no format is given. |
| Compressor.CanvasFormat | src/utils/imageCompressor.js:84-90 | `toBlob` encodes in the given type, or in PNG when no type is given. Every given type is taken to be one the browser can encode. |
| Compressor.CompressFromUrl | src/utils/imageCompressor.js:22-44 | The call rejects with "failed to load" exactly when the image does not load. Otherwise it compresses the image with the options merged over the defaults. |
| Compressor.CompressFromUrlDefaults | src/utils/imageCompressor.js:22-23 | With no options, the result is a JPEG of quality 0.8 within 800 by 600. |
| Compressor.GetSize | src/utils/imageCompressor.js:135-146 | The readable form is in KB exactly below 1048576 bytes. The exact KB value (bytes/1024) shown there is below 1024, and an MB value is at least 1. The two-decimal text itself is not modelled and can round up to "1024.00 KB". |
| Compressor.GetSizeMonotone | src/utils/imageCompressor.js:145 | A smaller size is never shown in a larger unit than a bigger one. |
| Compressor.CompareSize | src/utils/imageCompressor.js:154-166 | The original, compressed and reduction reports are each `getSize` of their byte count, so each is shown in the unit `getSize` picks. The reduction plus the compressed size is the original size. The reduction is non-negative exactly when compression did not grow the image. |
| Compressor.ReductionUnitNoLarger | src/utils/imageCompressor.js:154-166 | When compression did not grow the image, neither the saving nor the compressed size is shown in a larger unit than the original. |
| Strings.Includes | src/utils/serviceWorkerRegistration.js:57 | `includes` is true exactly when the substring occurs at some position. |
| Strings.PadStartZero | src/pages/student/TestTaking.jsx:249 | `padStart(width, "0")` leaves long strings alone. It brings short ones to the width, with zeros before the original text. |
| ServiceWorker.IsImage | public/service-worker.js:32-35 | A pathname is an image exactly when, after ASCII case folding, it ends in a dot and one of jpg, jpeg, png, gif, webp or svg. |
| ServiceWorker.EndsWithIgnoringCaseIsFoldedSuffix | public/service-worker.js:35 | Comparing characters from the end while ignoring case equals a suffix test on the case-folded path. |
| ServiceWorker.UpperCaseExtensionIsImage | public/service-worker.js:35 | `/img/q1.PNG` is an image: letter case does not matter. |
| ServiceWorker.ExtensionMustBeLast | public/service-worker.js:35 | `/q.png.txt` is not an image: the extension must end the path. |
| ServiceWorker.Activate | public/service-worker.js:12-26 | Activation deletes exactly the caches named with the `avto-test-` prefix, other than `avto-test-images`. The caches it keeps are unchanged. |
| ServiceWorker.ActivateKeepsImagesAndSettles | public/service-worker.js:12-26 | Activation never changes a lookup in the image cache and leaves no stale cache behind, and a second activation changes nothing. |
| ServiceWorker.ActivateExample | public/service-worker.js:15-24 | `avto-test-images-v1` is deleted. `avto-test-images` and an unrelated cache are kept. |
| ServiceWorker.HandleFetch | public/service-worker.js:31-70 | Non-images go to the network with the caches untouched. A hit is served without the network. On a miss, the network response is returned unchanged and stored only with status 200. A network failure gives the 404 "Image not found" / "Image fetch failed" response. Caches other than the image cache never change. |
| ServiceWorker.SecondFetchIsServedFromCache | public/service-worker.js:40-54 | After an image is fetched with status 200, the next request for it is answered from the cache, whatever the network would do. |
| ServiceWorker.UncachedFetchIsRetried | public/service-worker.js:49-62 | After a failed or non-200 fetch, the next request asks the network again. |
| ServiceWorker.HandleMessage | public/service-worker.js:73-97 | CLEAR_CACHE deletes the image cache and replies with success. CACHE_IMAGES either stores every URL and replies with count equal to the list length, or stores nothing and replies with failure. Other messages change nothing. |
| ServiceWorker.PutAll | public/service-worker.js:86-87 | When every fetch is delivered, each listed URL is stored with its own response. No other entry changes, and the only cache that can appear is the image cache. |
| ServiceWorker.PartialBatchFails | public/service-worker.js:83-96 | Five URLs, two of which fail: the reply is a failure and nothing is stored. |
| ServiceWorker.ClearCacheForgetsEverything | public/service-worker.js:74-81 | After CLEAR_CACHE, no URL is found in the image cache. |
| Registration.ClearImageCache | src/utils/serviceWorkerRegistration.js:53-68 | With the cache API, this deletes exactly the caches whose name contains "images" and keeps the rest unchanged. Without the API, it does nothing. |
| Registration.ClearedImageCachesMiss | src/utils/serviceWorkerRegistration.js:53-68 | After the clear, no cache whose name contains "images" answers any URL, and `isImageCached` is false for every URL. |
| Registration.ClearImageCacheExample | src/utils/serviceWorkerRegistration.js:56-61 | `avto-test-images` and `avto-test-images-v1` are cleared, and `fonts` is kept. |
| Registration.CacheOne | src/utils/serviceWorkerRegistration.js:77-85 | A URL is stored with its response exactly when the fetch gave an ok response. Otherwise nothing changes. No other entry is touched. |
| Registration.CacheEach | src/utils/serviceWorkerRegistration.js:76-87 | The per-URL writes add no cache and touch no URL outside the list. |
| Registration.CacheEachStoresOkResponses | src/utils/serviceWorkerRegistration.js:77-82 | A URL whose fetch gave an ok response ends up stored with that response. |
| Registration.CacheEachSkipsFailures | src/utils/serviceWorkerRegistration.js:83-85 | A URL none of whose fetches succeeded keeps its previous entry. Failures are swallowed. |
| Registration.CacheImages | src/utils/serviceWorkerRegistration.js:70-97 | Returns false, touching nothing, without the cache API, with an empty list, or when the cache will not open. Otherwise it opens the image cache, stores each URL with its last ok response, keeps the entry of a URL never fetched ok, changes no entry outside the list, and returns true. |
| Registration.CacheEachOutcome | src/utils/serviceWorkerRegistration.js:76-87 | For every position whose ok response is the last one for its URL, that response is stored. Every URL never fetched ok keeps its entry. |
| Registration.CacheImagesAllFailing | src/utils/serviceWorkerRegistration.js:76-90 | Even when every fetch fails, the call returns true and stores nothing. |
| Registration.IsImageCached | src/utils/serviceWorkerRegistration.js:99-110 | True exactly when the cache API is present, the cache opens, and the image cache holds the URL. No lookup result changes. |
| Registration.ClearThenNotCached | src/utils/serviceWorkerRegistration.js:99-110 | After the worker handles CLEAR_CACHE, `isImageCached` is false for every URL. |
| Registration.FetchedImageIsCached | public/service-worker.js:49-54 | After the worker fetches an image with status 200, `isImageCached` finds it. |
| Preloader.Init | src/utils/imagePreloader.js:9-15 | A new preloader has nothing loaded and nothing in flight. Compression is on with the BALANCED preset, and the cache-API flag is the one given (`'caches' in window`). |
| Preloader.SetCompression | src/utils/imagePreloader.js:20-25 | The flag always takes the given value. The options change only for a recognised preset name. Nothing else changes. |
| Preloader.DisableResetsPreset | src/utils/imagePreloader.js:20 | `setCompression(false)` with the default argument also resets the options to BALANCED. |
| Preloader.CheckCache | src/utils/imagePreloader.js:30-40 | Without the cache API, or when the cache fails, the result is null. Otherwise it is the image cache's entry for the URL. |
| Preloader.PreloadImage | src/utils/imagePreloader.js:83-133 | The guards in order: a falsy URL gives null and changes nothing. A loaded URL is answered at once with no cache lookup. A cache hit marks the URL loaded without a load. An in-flight URL gets its pending load, and no load starts. Any other URL starts exactly one load. Loaded and in-flight URLs are never dropped. |
| Preloader.AddToCache | src/utils/imagePreloader.js:45-76 | An entry is written only when the cache API exists, compression is on, and encoding and storing succeed. In every other case no lookup changes. |
| Preloader.RequestedEncoding | src/utils/imagePreloader.js:52-62 | The encoder is asked for exactly the resized image within the preset's bounds, at the preset's quality, in the format the entry is labelled with. This is the corrected version. |
| Preloader.EncodingAsWritten | src/utils/imagePreloader.js:54 | As written, the preset is passed without a format, so the canvas is asked for PNG at the same size. The quality is passed along but has no effect on PNG. |
| Preloader.EncodingAsWrittenMislabels | src/utils/imagePreloader.js:54-59 | The entry `addToCache` stores is labelled "image/jpeg". As written, the encoder is asked for another format. The corrected encoding agrees with the label. |
| Preloader.OnLoad | src/utils/imagePreloader.js:109-118 | A successful load moves the URL from in flight to loaded and resolves to the URL, however caching went. |
| Preloader.DisabledCompressionCachesNothing | src/utils/imagePreloader.js:20-76 | After compression is switched off, with any preset, a successful load changes no cache lookup. |
| Preloader.PreloadedImageServedByWorker | src/utils/imagePreloader.js:45-76 | With the cache API and compression on, once a load has stored its entry, the service worker answers a request for that image URL with the stored compressed response and without the network. |
| Preloader.OnError | src/utils/imagePreloader.js:120-125 | A failed load removes the URL from in flight and leaves the loaded set unchanged. It resolves to null instead of rejecting. |
| Preloader.Clear | src/utils/imagePreloader.js:205-220 | Both maps are emptied. The image cache is deleted unless there is no cache API or the deletion fails. |
| Preloader.ClearForgets | src/utils/imagePreloader.js:205-230 | After a successful clear, the stats are (0, 0), no URL is loaded, and no URL is cached. |
| Preloader.IsLoaded | src/utils/imagePreloader.js:198-200 | True exactly for loaded URLs. A loaded, non-empty URL is answered by `preloadImage` at once, whatever the cache holds. |
| Preloader.GetStats | src/utils/imagePreloader.js:225-230 | `cached` is the number of loaded URLs and `loading` the number of loads in flight. With nothing in flight and nothing cached, a call starts a load exactly for a non-empty URL that is not loaded. |
| Preloader.StatsCountLoads | src/utils/imagePreloader.js:225-230 | A call raises the `loading` count by one exactly when it starts a load. |
| Preloader.SecondCallJoins | src/utils/imagePreloader.js:101-103 | A second call for the same URL never starts a second load. |
| Preloader.AtMostOneLoad | src/utils/imagePreloader.js:100-132 | Any number of calls for one URL start at most one load, and none if the URL is already loaded or in flight. |
| Preloader.LoadedIsServedFromMemory | src/utils/imagePreloader.js:89-91 | After a successful load, asking again answers at once, changes nothing and starts nothing. |
| Preloader.FailedLoadIsRetried | src/utils/imagePreloader.js:120-125 | After a failed load, the next call starts a new load. |
| Preloader.ValidUrls | src/utils/imagePreloader.js:142 | A URL is kept exactly when it is non-empty and in the input list, and the result is no longer than the input. |
| Preloader.ValidUrlsAppend | src/utils/imagePreloader.js:142 | The filter distributes over concatenation, and a single entry is kept exactly when it is truthy. So the kept URLs stay in input order. |
| Preloader.Percentage | src/utils/imagePreloader.js:174 | The value is within one half of the exact percentage 100·done/total. It lies in 0..100, and is exactly 100 once every URL is processed. |
| Preloader.Snapshot | src/utils/imagePreloader.js:169-175 | In each report, loaded plus failed equals the processed count, and the total is the number of URLs. |
| Preloader.PreloadImages | src/utils/imagePreloader.js:141-191 | The batches cover the URLs in order: all have width 30 except the last, which is not empty. The results are the settlements. loaded counts the successes and loaded + failed = total. With a callback there is exactly one report per URL, the k-th report reflects the first k settlements, and the last report shows 100%. |
| Preloader.NextBatch | src/utils/imagePreloader.js:153-178 | One turn of the loop slices the next up to 30 URLs as a batch, and keeps the loop's account true 30 URLs further on: the settled prefix, its counts and reports, and full batches except a last, partial one. |
| Preloader.BatchesComplete | src/utils/imagePreloader.js:153-190 | Once the loop has passed the last URL, the results are all the settlements, the batches concatenate to the URL list, and the last report shows 100%. |
| Preloader.SettleBatch | src/utils/imagePreloader.js:160-177 | One batch adds each settlement to loaded or failed and appends one report per settlement. |
| Preloader.SnapshotsAdvance | src/utils/imagePreloader.js:160-177 | Between successive reports, the processed count rises by exactly one, the success count rises by at most one, and the percentage never falls. |
| Preloader.ProgressExample | src/utils/imagePreloader.js:160-177 | Three URLs with the second failing give reports at 33%, 67% and 100%, ending with two loaded and one failed. |
| TestTaking.Start | src/pages/student/TestTaking.jsx:10-33 | Without a stored test, the page leaves for test selection. With one, it starts at question 0 with one empty slot per question, the full duration and the test's language. Either way no dialog is open and no feedback is shown. |
| TestTaking.Recorded | src/pages/student/TestTaking.jsx:88 | An answer is kept exactly when some slot records it, and the result has one entry per recorded slot. |
| TestTaking.RecordedAppend | src/pages/student/TestTaking.jsx:88 | The filter distributes over concatenation, a recorded slot gives its answer and an empty slot gives nothing, so the answers keep question order and repeats. |
| TestTaking.FinishWith | src/pages/student/TestTaking.jsx:83-90 | The finish submission carries the test's identifiers and the recorded answers. |
| TestTaking.SelectAnswer | src/pages/student/TestTaking.jsx:105-139 | The call does nothing while feedback shows or before the test loads, when the current slot is taken, when the option index is out of range, or when the server call fails. Otherwise it records, in the current slot only, the question id, the language, the chosen answer id and the server's verdict and correct answer, and shows that reply as feedback. |
| TestTaking.SelectAnswerWritesOnce | src/pages/student/TestTaking.jsx:109-110 | A recorded answer is never overwritten, and no slot other than the current one changes. |
| TestTaking.Advance | src/pages/student/TestTaking.jsx:140-150 | After the feedback, the page moves to the next question, or after the last question finishes with every recorded answer. Only the index and the feedback change: the timer, the dialogs, the language and the answers are kept. This is the corrected version. |
| TestTaking.AdvanceAsWritten | src/pages/student/TestTaking.jsx:140-150 | As written, the finish submits the answers array captured before the last answer was recorded. |
| TestTaking.LastAnswerIsDropped | src/pages/student/TestTaking.jsx:140-150 | After answering the last question, the as-written finish submits one answer fewer than the corrected one. The corrected one contains the new answer. |
| TestTaking.OneQuestionExample | src/pages/student/TestTaking.jsx:140-150 | For a one-question test, the as-written finish submits no answers, while the corrected one submits one. |
| TestTaking.FunctionKeyIndex | src/pages/student/TestTaking.jsx:178-193 | A key selects an option exactly when it is one of F1 to F5, and Fk selects option k-1. |
| TestTaking.Escape | src/pages/student/TestTaking.jsx:199-208 | Escape closes the image if it is open, else closes the exit dialog if it is open, else opens the exit dialog. |
| TestTaking.HandleKey | src/pages/student/TestTaking.jsx:166-218 | All keys are ignored while feedback shows. Fk answers option k-1 only when the question has at least k options. f/F toggles the image. Enter leaves exactly when the exit dialog is open. Any other key changes nothing. No key finishes the test. |
| TestTaking.EscapeTwiceRestores | src/pages/student/TestTaking.jsx:199-208 | With no dialog open, Escape opens the exit dialog and a second Escape restores the state. |
| TestTaking.EscapeThenEnterExits | src/pages/student/TestTaking.jsx:199-213 | With no dialog open, Escape then Enter leaves the test. |
| TestTaking.KeysPreserveValidity | src/pages/student/TestTaking.jsx:166-218 | Keys keep one slot per question and a current question, and never overwrite a recorded answer. |
| TestTaking.Jump | src/pages/student/TestTaking.jsx:390-396 | A page button is ignored while feedback shows. Otherwise it moves to question k when k is in range, and changes nothing else. |
| TestTaking.HandleClick | src/pages/student/TestTaking.jsx:265-436 | Without a test nothing happens. Leaving happens exactly on the confirm button of an open exit dialog, and that button changes no state. No click finishes the test. The exit button opens the dialog and its cancel button closes it. The picture opens the image and the overlay closes it. A page button jumps. Answers change only through an answer button, and every answer button, whatever its index, acts as `selectAnswer` of that index. |
| TestTaking.ClicksPreserveValidity | src/pages/student/TestTaking.jsx:265-436 | Clicks keep one slot per question and a current question, and never overwrite a recorded answer. |
| TestTaking.ClicksMatchKeys | src/pages/student/TestTaking.jsx:178-433 | Answer button k acts as key F(k+1). The confirm button acts as Enter, and with the image closed, the cancel button acts as Escape. |
| TestTaking.SkipToLastFinishes | src/pages/student/TestTaking.jsx:140-396 | Jumping straight to the last question and answering it finishes the test with exactly that one answer. |
| TestTaking.Tick | src/pages/student/TestTaking.jsx:67-78 | The countdown runs only with a test and time left. A tick above 1 counts down by one, and the tick at 1 sets the time to 0 and finishes the test. |
| TestTaking.CountdownFinishesOnce | src/pages/student/TestTaking.jsx:67-78 | From d seconds, the time reaches 0 after exactly d ticks and the test is finished exactly once. |
| TestTaking.JsRem | src/pages/student/TestTaking.jsx:248 | JavaScript's `%` gives the Euclidean remainder for non-negative numbers, and otherwise a remainder of the dividend's sign and below the divisor in size. In both cases it differs from the dividend by a multiple of the divisor. |
| TestTaking.FormatTime | src/pages/student/TestTaking.jsx:246-250 | For s >= 0, the clock shows s div 60 minutes and a two-digit s mod 60 field, and reads back as s. |
| TestTaking.ClockShows | src/pages/student/TestTaking.jsx:246-250 | For s >= 0, the clock string built with JavaScript's `%` and `padStart` equals minutes, a colon and two second digits, and reads back as s. |
| TestTaking.FormatTimeRoundTrip | src/pages/student/TestTaking.jsx:246-250 | For s >= 0, reading the clock back gives s, and the seconds field is exactly two digits. |
| TestTaking.TwoDigitsReadBack | src/pages/student/TestTaking.jsx:249 | A seconds value below 60 is shown in exactly two digits, which read back as the value. |

## Findings

| source | as written | input that shows it | evidently intended | confidence | as-written member | corrected member |
|---|---|---|---|---|---|---|
| src/pages/student/TestTaking.jsx:140-150 | The auto-advance timeout calls the `handleFinishTest` captured by `selectAnswer`'s closure. Its `answers` is the array from before the answer was recorded. | A one-question test, answered with F1 and accepted by the server: `finishTest` receives `questions: []`. | Submit every recorded answer, including the last one. | high (not executed) | TestTaking.AdvanceAsWritten (shown by TestTaking.LastAnswerIsDropped, TestTaking.OneQuestionExample) | TestTaking.Advance |
| src/utils/imagePreloader.js:54-59 | `addToCache` passes the preset, which has no `mimeType`, as the options. `toBlob` then encodes PNG and ignores the quality, while the entry is stored as Content-Type `image/jpeg`. | Any preload with compression on, e.g. the BALANCED preset: the canvas is asked for `image/png`. | Encode as JPEG at the preset's quality, matching the stored Content-Type. | high (not executed) | Preloader.EncodingAsWritten (shown by Preloader.EncodingAsWrittenMislabels) | Preloader.RequestedEncoding |

## Left out

- Canvas drawing, `toBlob` byte output, `blobToDataUrl`, `compressToDataUrl` and `compressToObjectUrl` are not modelled: they are FileReader and object-URL I/O. The model stops at the encoder request (`Compressor.Encoding`).
- The floating-point `toFixed` strings of `getSize` and `compareSize` are not modelled. This includes `reductionPercent` and `compressionRatio`, which divide by the original size. The canvas's truncation of dimensions to integers is not modelled either: dimensions are exact reals.
- Compressor.CanvasFormat: a type the browser cannot encode also makes `toBlob` fall back to PNG. Which types a browser supports is host-defined and is not modelled, so every given type is taken as encodable.
- Compressor.Resize: requires non-negative bounds, because a negative bound can make the code divide by zero. JavaScript would produce NaN or Infinity there.
- Compressor.PresetNamed: names inherited from `Object.prototype` (`toString`, `constructor`, …) are treated as unknown. In JavaScript they would be truthy and would replace the options with a function.
- Compressor.Merge: a key passed explicitly as `undefined` overrides the default in a JavaScript spread. The model has no such value: a key is either given or absent.
- Preloader.Percentage: `Math.round` of the floating-point quotient is modelled as exact rational rounding with halves rounded up.
- Preloader.PreloadImage: the `await checkCache` between the loaded check and the in-flight check is a point where another call can run. The model takes the whole call as one step, so a load that finishes during that await is not modelled.
- Promise interleavings are not modelled. This covers the order in which a batch's loads settle (`settled` is given in list order), the unawaited `cache.put` in the fetch handler, and the page/worker message passing.
- Store failures are modelled only where the code catches them and the outcome matters: `checkCache`, `addToCache`, `clear`, `cacheImages`' open, and `isImageCached`. The failures not modelled are: a failing `caches.delete` during activation, a failing CLEAR_CACHE deletion (which would send no reply), `cache.put` failures in `cacheImages`, a deletion error that stops `clearImageCache`'s loop, and two rejections in the worker that are not caught. In the CACHE_IMAGES handler, a rejected `caches.open` sends no reply at all; `ServiceWorker.HandleMessage` models only a rejected `addAll`. In the fetch handler, a rejected `caches.open` or `cache.match` fails `respondWith`, so the page sees a network error rather than the 404 stand-in; `ServiceWorker.HandleFetch` never gives an image request a network error.
- ServiceWorker.HandleMessage: the error text of a failed CACHE_IMAGES reply is host-defined and is not modelled. Also not modelled: `addAll`'s rejections for `Vary: *` responses and non-HTTP URLs, and a message whose `urls` is missing.
- `new URL(request.url).pathname` is not modelled: a request carries its pathname already split off, so a query string never reaches the classifier.
- URLs are cache keys exactly as given: relative-URL resolution and the request-matching options of `cache.match` are not modelled.
- Registration.CacheEach: the concurrent puts of a URL that appears twice in the list are taken in list order.
- Service-worker install, `skipWaiting` and `clients.claim`, and `registerServiceWorker`/`unregisterServiceWorker` are not modelled: they are lifecycle plumbing.
- TestTaking.SelectAnswer: the write-once guard runs before the awaited `submitAnswer` call, and the write runs after it. The answer buttons are not disabled during the await, so two presses within that window both pass the guard: the second reply overwrites the slot, and a second auto-advance moves the index twice. The model takes each call as one atomic step, so this interleaving is not modelled.
- TestTaking.SelectAnswer: a current index beyond the question list (which would crash the page) is treated as a no-op. It cannot occur in a valid session.
- TestTaking.Tick: finishing on timeout submits the current answers. It does not model the up-to-one-second-old closure the interval callback may hold.
- TestTaking rendering, fullscreen calls, `preventDefault`, alerts, session-storage removal and the result navigation after `finishTest` are not modelled: they are UI only.
- TestTaking.HandleClick: whether the current question has a picture is not modelled. The picture and overlay clicks are taken as available whenever a test is loaded.
- `console` logging is not modelled.

=== FILE: arith.dfy ===
/** Facts about integer division used by the progress percentage and the clock. */
module Arith {

  lemma DivBelow(n: int, d: int, q: int)
    requires 0 < d && 0 <= n < d * (q + 1)
    ensures n / d <= q
  {
    var k := n / d;
    assert n == d * k + n % d;
    if k > q {
      assert k >= q + 1;
      MulLe(d, q + 1, k);
    }
  }

  lemma DivAtLeast(n: int, d: int, q: int)
    requires 0 < d && d * q <= n
    ensures q <= n / d
  {
    var k := n / d;
    assert n == d * k + n % d;
    if k < q {
      MulLe(d, k + 1, q);
    }
  }

  lemma MulLe(d: int, a: int, b: int)
    requires 0 < d && a <= b
    ensures d * a <= d * b
  {
    assert d * b - d * a == d * (b - a);
  }

  lemma DivMonotone(a: int, b: int, d: int)
    requires 0 <= a <= b && 0 < d
    ensures a / d <= b / d
  {
    var k := b / d;
    assert b == d * k + b % d;
    DivBelow(a, d, k);
  }

  /** A multiple of `d` leaves no remainder. */
  lemma MultipleMod(d: int, k: int)
    requires 0 < d
    ensures (d * k) % d == 0
  {
    var x := d * k;
    var q := x / d;
    assert x == d * q + x % d;
    assert d * (k - q) == x % d;
    if k - q >= 1 {
      MulLe(d, 1, k - q);
    } else if k - q <= -1 {
      MulLe(d, k - q, -1);
    }
  }

  /** Converting a product to a real is the product of the conversions. */
  lemma {:induction false} MulToReal(a: int, b: int)
    ensures (a * b) as real == (a as real) * (b as real)
    decreases if b < 0 then -b else b
  {
    if b > 0 {
      MulToReal(a, b - 1);
      assert a * b == a * (b - 1) + a;
    } else if b < 0 {
      MulToReal(a, b + 1);
      assert a * b == a * (b + 1) - a;
    }
  }

  /** A positive factor can be cancelled from both sides of a comparison. */
  lemma CancelPositive(a: real, b: real, t: real)
    requires 0.0 < t
    ensures a * t <= b * t ==> a <= b
    ensures a * t < b * t ==> a < b
  {
    assert b * t - a * t == (b - a) * t;
  }
}

=== FILE: cache_storage.dfy ===
/**
 * An abstract Cache Storage, shared by the service worker and the page: named
 * caches, each a map from request URL to stored response. URLs are taken as
 * already resolved to absolute form.
 */
module CacheStorage {
  import opened Wrappers

  /** A response, reduced to what the worker and the page inspect or produce. */
  datatype Response = Response(status: int, statusText: string, contentType: string, body: string)

  /** `response.ok`: a status in the range 200-299. */
  predicate Ok(r: Response) {
    200 <= r.status <= 299
  }

  /** One named cache: request URL to response, last write wins. */
  type Cache = map<string, Response>

  /** All caches of the origin, by name. */
  type Caches = map<string, Cache>

  /** The image cache: the one cache the worker, the preloader and the helpers read and write. */
  const IMAGE_CACHE := "avto-test-images"

  /** `caches.open(name)`: the named cache is created, empty, when it does not exist yet. */
  function Open(c: Caches, name: string): (r: Caches)
    ensures name in r && (name in c ==> r[name] == c[name]) && (name !in c ==> r[name] == map[])
    ensures r.Keys == c.Keys + {name}
    ensures forall n :: n in c ==> r[n] == c[n]
  {
    if name in c then c else c[name := map[]]
  }

  /** `cache.match(url)` in the named cache; None when the cache or the entry is absent. */
  function Match(c: Caches, name: string, url: string): (r: Option<Response>)
    ensures r.Some? <==> name in c && url in c[name]
    ensures r.Some? ==> r.value == c[name][url]
  {
    if name in c && url in c[name] then Some(c[name][url]) else None
  }

  /** `cache.put(url, response)` on the named cache, opening it first; no other entry changes. */
  function Put(c: Caches, name: string, url: string, resp: Response): (r: Caches)
    ensures r.Keys == c.Keys + {name}
    ensures Match(r, name, url) == Some(resp)
    ensures forall n, u :: (n, u) != (name, url) ==> Match(r, n, u) == Match(c, n, u)
  {
    var o := Open(c, name);
    o[name := o[name][url := resp]]
  }

  /** `caches.delete(name)`: the named cache and all its entries are gone; other caches stay. */
  function Delete(c: Caches, name: string): (r: Caches)
    ensures r.Keys == c.Keys - {name}
    ensures forall u :: Match(r, name, u).None?
    ensures forall n, u :: n != name ==> Match(r, n, u) == Match(c, n, u)
  {
    c - {name}
  }

  /** Caches with the same names and the same lookups are equal. */
  lemma MatchExtensional(a: Caches, b: Caches)
    requires a.Keys == b.Keys
    requires forall n, u :: Match(a, n, u) == Match(b, n, u)
    ensures a == b
  {
    forall n | n in a
      ensures a[n] == b[n]
    {
      assert forall u :: u in a[n] <==> Match(a, n, u).Some?;
      assert forall u :: u in b[n] <==> Match(b, n, u).Some?;
      assert a[n].Keys == b[n].Keys;
      forall u | u in a[n]
        ensures a[n][u] == b[n][u]
      {
        assert Match(a, n, u) == Match(b, n, u);
      }
    }
  }
}

=== FILE: compressor.dfy ===
/**
 * The image compressor of src/utils/imageCompressor.js: the resize rule of
 * `compressImage`, the default options and the preset table, the options merge
 * of `compressFromUrl`, and the integer parts of `getSize`/`compareSize`.
 * Dimensions are exact reals; canvas drawing and encoding are abstract.
 */
module Compressor {
  import opened Wrappers
  import Arith

  /** Width and height of an image. */
  datatype Dims = Dims(width: real, height: real)

  /** The options `compressImage` reads; a preset passed as options has no `mimeType` key. */
  datatype Options = Options(maxWidth: real, maxHeight: real, quality: real, mimeType: Option<string>)

  /** One entry of the preset table: bounds and quality (the table names no output format). */
  datatype Preset = Preset(maxWidth: real, maxHeight: real, quality: real)

  /** The compressor's `defaultOptions`. */
  const DEFAULT_OPTIONS := Options(800.0, 600.0, 0.8, Some("image/jpeg"))

  const HIGH_QUALITY := Preset(1200.0, 900.0, 0.9)
  const BALANCED := Preset(800.0, 600.0, 0.8)
  const LOW_SIZE := Preset(600.0, 450.0, 0.6)
  const THUMBNAIL := Preset(300.0, 225.0, 0.5)

  /** `COMPRESSION_PRESETS[name]`: the preset of that name, or None for an unknown name. */
  function PresetNamed(name: string): (r: Option<Preset>)
    ensures r.Some? <==> name in {"HIGH_QUALITY", "BALANCED", "LOW_SIZE", "THUMBNAIL"}
    ensures r.Some? ==> WellFormed(r.value)
  {
    if name == "HIGH_QUALITY" then Some(HIGH_QUALITY)
    else if name == "BALANCED" then Some(BALANCED)
    else if name == "LOW_SIZE" then Some(LOW_SIZE)
    else if name == "THUMBNAIL" then Some(THUMBNAIL)
    else None
  }

  /** A preset keeps the 4:3 frame and a quality in (0, 1]. */
  predicate WellFormed(p: Preset) {
    3.0 * p.maxWidth == 4.0 * p.maxHeight && 0.0 < p.quality <= 1.0 && 0.0 < p.maxHeight
  }

  /** The default options describe the BALANCED preset, in the default output format. */
  lemma DefaultsAreBalanced()
    ensures PresetNamed("BALANCED") == Some(Preset(DEFAULT_OPTIONS.maxWidth, DEFAULT_OPTIONS.maxHeight, DEFAULT_OPTIONS.quality))
    ensures WellFormed(BALANCED)
  {
  }

  /** Presets are ordered by footprint: each later preset has smaller bounds and lower quality. */
  lemma PresetsShrink()
    ensures forall a, b :: a in PRESET_ORDER && b in PRESET_ORDER ==> PresetNamed(a).Some? && PresetNamed(b).Some?
    ensures forall i, j :: 0 <= i < j < |PRESET_ORDER| ==> Smaller(PresetNamed(PRESET_ORDER[j]).value, PresetNamed(PRESET_ORDER[i]).value)
  {
  }

  const PRESET_ORDER := ["HIGH_QUALITY", "BALANCED", "LOW_SIZE", "THUMBNAIL"]

  predicate Smaller(p: Preset, q: Preset) {
    p.maxWidth < q.maxWidth && p.maxHeight < q.maxHeight && p.quality < q.quality
  }

  /**
   * The output size `compressImage` computes: first fit the width, then, if the
   * resulting height is still too large, fit the height; never scale up.
   * Non-negative bounds keep the divisions defined.
   */
  function Resize(img: Dims, maxWidth: real, maxHeight: real): (r: Dims)
    requires 0.0 <= maxWidth && 0.0 <= maxHeight
    // the aspect ratio is kept exactly
    ensures r.width * img.height == r.height * img.width
    // an image within both bounds passes through unchanged
    ensures img.width <= maxWidth && img.height <= maxHeight ==> r == img
    // for a real image: the result fits both bounds and is no larger than the input
    ensures 0.0 <= img.width && 0.0 <= img.height ==>
              r.width <= maxWidth && r.height <= maxHeight && 0.0 <= r.width <= img.width && 0.0 <= r.height <= img.height
  {
    var fitted := FitWidth(img, maxWidth);
    var r := FitHeight(fitted, maxHeight);
    if r == fitted then r
    else
      RatioChains(img, fitted, r);
      r
  }

  /** The width step of the resize rule. */
  function FitWidth(img: Dims, maxWidth: real): (r: Dims)
    requires 0.0 <= maxWidth
    ensures r.width * img.height == r.height * img.width
    ensures img.width <= maxWidth ==> r == img
    ensures 0.0 <= img.width && 0.0 <= img.height ==> r.width <= maxWidth && 0.0 <= r.width <= img.width && 0.0 <= r.height <= img.height
  {
    if img.width > maxWidth then
      CapSide(img.height, maxWidth, img.width);
      Dims(maxWidth, img.height * maxWidth / img.width)
    else
      img
  }

  /** The height step of the resize rule. */
  function FitHeight(img: Dims, maxHeight: real): (r: Dims)
    requires 0.0 <= maxHeight
    ensures r.width * img.height == r.height * img.width
    ensures img.height <= maxHeight ==> r == img
    ensures r != img ==> 0.0 < img.height
    ensures 0.0 <= img.width && 0.0 <= img.height ==> r.height <= maxHeight && 0.0 <= r.width <= img.width && 0.0 <= r.height <= img.height
  {
    if img.height > maxHeight then
      CapSide(img.width, maxHeight, img.height);
      Dims(img.width * maxHeight / img.height, maxHeight)
    else
      img
  }

  /** Two steps that each keep the aspect ratio keep it together, when the middle frame has a height. */
  lemma RatioChains(a: Dims, b: Dims, c: Dims)
    requires 0.0 < b.height
    requires b.width * a.height == b.height * a.width
    requires c.width * b.height == c.height * b.width
    ensures c.width * a.height == c.height * a.width
  {
    calc {
      (c.width * a.height) * b.height;
      (c.width * b.height) * a.height;
      (c.height * b.width) * a.height;
      c.height * (b.width * a.height);
      c.height * (b.height * a.width);
      (c.height * a.width) * b.height;
    }
  }

  /** Both sides multiplied by one factor. */
  function Scaled(img: Dims, s: real): Dims {
    Dims(img.width * s, img.height * s)
  }

  /** `d` fits within the bounds. */
  predicate Fits(d: Dims, maxWidth: real, maxHeight: real) {
    d.width <= maxWidth && d.height <= maxHeight
  }

  function Min(a: real, b: real): real {
    if a <= b then a else b
  }

  /** The factor the resize rule scales by: min(1, maxWidth / width, maxHeight / height). */
  function ScaleFactor(img: Dims, maxWidth: real, maxHeight: real): real
    requires 0.0 < img.width && 0.0 < img.height
  {
    Min(1.0, Min(maxWidth / img.width, maxHeight / img.height))
  }

  /**
   * The resize rule is one uniform scale: for a non-empty image the result is
   * the image scaled by ScaleFactor, and that factor makes the image fit.
   */
  lemma ResizeIsUniformScale(img: Dims, maxWidth: real, maxHeight: real)
    requires 0.0 < img.width && 0.0 < img.height
    requires 0.0 <= maxWidth && 0.0 <= maxHeight
    ensures Resize(img, maxWidth, maxHeight) == Scaled(img, ScaleFactor(img, maxWidth, maxHeight))
  {
    var w, h := img.width, img.height;
    var sw, sh := maxWidth / w, maxHeight / h;
    var s1 := Min(1.0, sw);
    FitWidthIsScale(img, maxWidth);
    var fitted := FitWidth(img, maxWidth);
    assert fitted.height == h * s1;
    FactorBound(h, maxHeight, s1);
    assert Resize(img, maxWidth, maxHeight) == FitHeight(fitted, maxHeight);
    if fitted.height > maxHeight {
      HeightStep(img, s1, maxHeight);
      assert sh < s1 && ScaleFactor(img, maxWidth, maxHeight) == sh;
    } else {
      assert s1 <= sh && ScaleFactor(img, maxWidth, maxHeight) == s1;
    }
  }

  /** No factor of at most 1 larger than ScaleFactor makes the image fit. */
  lemma ScaleFactorIsLargest(img: Dims, maxWidth: real, maxHeight: real, t: real)
    requires 0.0 < img.width && 0.0 < img.height
    requires 0.0 <= t <= 1.0 && Fits(Scaled(img, t), maxWidth, maxHeight)
    ensures t <= ScaleFactor(img, maxWidth, maxHeight)
  {
    FactorBound(img.width, maxWidth, t);
    FactorBound(img.height, maxHeight, t);
  }

  /** For a positive side `x`, the factor `t` keeps `x * t` within `m` exactly when `t <= m / x`. */
  lemma FactorBound(x: real, m: real, t: real)
    requires 0.0 < x
    ensures x * (m / x) == m
    ensures x * t <= m <==> t <= m / x
  {
  }

  /** The width step scales by min(1, maxWidth / width). */
  lemma FitWidthIsScale(img: Dims, maxWidth: real)
    requires 0.0 < img.width && 0.0 <= maxWidth
    ensures FitWidth(img, maxWidth) == Scaled(img, Min(1.0, maxWidth / img.width))
  {
    var w, h := img.width, img.height;
    if w > maxWidth {
      assert w * (maxWidth / w) == maxWidth;
      assert h * maxWidth / w == h * (maxWidth / w);
    }
  }

  /** The height step applied to an image already scaled by `s1` lands on factor maxHeight / height. */
  lemma HeightStep(img: Dims, s1: real, maxHeight: real)
    requires 0.0 < img.width && 0.0 < img.height && 0.0 < s1
    ensures var f := Scaled(img, s1);
            Dims(f.width * maxHeight / f.height, maxHeight) == Scaled(img, maxHeight / img.height)
  {
    var w, h := img.width, img.height;
    calc {
      (w * s1) * maxHeight / (h * s1);
      w * maxHeight / h;
      w * (maxHeight / h);
    }
    assert h * (maxHeight / h) == maxHeight;
  }

  /**
   * Capping a side `d` at `m < d` and scaling the other side `a` to match keeps
   * the ratio (the new `a` times `d` is `m` times `a`) and shrinks a
   * non-negative `a`.
   */
  lemma CapSide(a: real, m: real, d: real)
    requires 0.0 <= m < d
    ensures (a * m / d) * d == m * a
    ensures 0.0 <= a ==> 0.0 <= a * m / d <= a
  {
    var q := a * m / d;
    calc {
      q * d;
      a * m;
      m * a;
    }
    if 0.0 <= a {
      assert d * a - m * a == (d - m) * a;
      Arith.CancelPositive(q, a, d);
      Arith.CancelPositive(0.0, q, d);
    }
  }

  /** The keys a caller passes to `compressFromUrl`; None is a key the caller left out. */
  datatype Overrides = Overrides(maxWidth: Option<real>, maxHeight: Option<real>, quality: Option<real>, mimeType: Option<string>)

  const NO_OVERRIDES := Overrides(None, None, None, None)

  /** `field` agrees with the override when one is given, and with the default otherwise. */
  predicate Overridden<T(==)>(field: T, given: Option<T>, default: T) {
    if given.Some? then field == given.value else field == default
  }

  /** `{ ...defaults, ...o }`: every key given in `o` wins, every other key keeps its default. */
  function Merge(defaults: Options, o: Overrides): (r: Options)
    ensures Overridden(r.maxWidth, o.maxWidth, defaults.maxWidth)
    ensures Overridden(r.maxHeight, o.maxHeight, defaults.maxHeight)
    ensures Overridden(r.quality, o.quality, defaults.quality)
    ensures o.mimeType.Some? ==> r.mimeType == o.mimeType
    ensures o.mimeType.None? ==> r.mimeType == defaults.mimeType
  {
    Options(o.maxWidth.GetOr(defaults.maxWidth), o.maxHeight.GetOr(defaults.maxHeight),
            o.quality.GetOr(defaults.quality), if o.mimeType.Some? then o.mimeType else defaults.mimeType)
  }

  /** Spreading an empty object changes nothing; spreading the same keys twice is spreading them once. */
  lemma MergeLaws(defaults: Options, o: Overrides)
    ensures Merge(defaults, NO_OVERRIDES) == defaults
    ensures Merge(Merge(defaults, o), o) == Merge(defaults, o)
    ensures Merge(defaults, Overrides(Some(defaults.maxWidth), Some(defaults.maxHeight), Some(defaults.quality), defaults.mimeType)) == defaults
  {
  }

  /** A preset object passed where options are expected: its bounds and quality, and no `mimeType` key. */
  function PresetAsOptions(p: Preset): (r: Options)
    ensures r.mimeType.None?
    ensures r.maxWidth == p.maxWidth && r.maxHeight == p.maxHeight && r.quality == p.quality
  {
    Options(p.maxWidth, p.maxHeight, p.quality, None)
  }

  /** A preset spread over the default options: its bounds and quality, in the default format. */
  function PresetOverDefaults(p: Preset): (r: Options)
    ensures r == Merge(DEFAULT_OPTIONS, Overrides(Some(p.maxWidth), Some(p.maxHeight), Some(p.quality), None))
    ensures r.mimeType == Some("image/jpeg")
  {
    Options(p.maxWidth, p.maxHeight, p.quality, DEFAULT_OPTIONS.mimeType)
  }

  /** How loading the source image ends: decoded with its natural size, or a load error. */
  datatype ImageLoad = Decoded(size: Dims) | LoadError

  /** What `compressImage` asks the canvas for: the output size, quality and format. */
  datatype Encoding = Encoding(size: Dims, quality: real, mimeType: string)

  /** `canvas.toBlob` encodes as PNG when it is given no type. */
  const CANVAS_DEFAULT_TYPE := "image/png"

  /** The format the canvas produces for the options' `mimeType`. */
  function CanvasFormat(mimeType: Option<string>): (r: string)
    ensures mimeType.Some? ==> r == mimeType.value
    ensures mimeType.None? ==> r == CANVAS_DEFAULT_TYPE
  {
    mimeType.GetOr(CANVAS_DEFAULT_TYPE)
  }

  /** The failures `compressFromUrl` rejects with. */
  datatype CompressError = FailedToLoadImage

  datatype CompressResult = Compressed(encoding: Encoding) | Rejected(error: CompressError)

  /** `compressImage(img, options)`: resize by the rule, encode with the options' quality and format. */
  function CompressImage(img: Dims, opts: Options): (r: Encoding)
    requires 0.0 <= opts.maxWidth && 0.0 <= opts.maxHeight
    ensures r.quality == opts.quality && r.mimeType == CanvasFormat(opts.mimeType)
    ensures 0.0 <= img.width && 0.0 <= img.height ==> Fits(r.size, opts.maxWidth, opts.maxHeight)
    ensures r.size.width * img.height == r.size.height * img.width
    // the canvas is asked for exactly the resized image
    ensures r.size == Resize(img, opts.maxWidth, opts.maxHeight)
  {
    Encoding(Resize(img, opts.maxWidth, opts.maxHeight), opts.quality, CanvasFormat(opts.mimeType))
  }

  /**
   * `compressFromUrl(url, options)`: merge the options over the defaults, load
   * the image, and compress it; a load error rejects.
   */
  function CompressFromUrl(o: Overrides, load: ImageLoad): (r: CompressResult)
    requires 0.0 <= Merge(DEFAULT_OPTIONS, o).maxWidth && 0.0 <= Merge(DEFAULT_OPTIONS, o).maxHeight
    ensures load.LoadError? <==> r == Rejected(FailedToLoadImage)
    ensures load.Decoded? ==> r.Compressed? && r.encoding == CompressImage(load.size, Merge(DEFAULT_OPTIONS, o))
  {
    match load
    case LoadError => Rejected(FailedToLoadImage)
    case Decoded(size) => Compressed(CompressImage(size, Merge(DEFAULT_OPTIONS, o)))
  }

  /** With no options given, a decoded image is encoded as a JPEG of quality 0.8 within 800 by 600. */
  lemma CompressFromUrlDefaults(size: Dims)
    requires 0.0 <= size.width && 0.0 <= size.height
    ensures var r := CompressFromUrl(NO_OVERRIDES, Decoded(size));
            && r.Compressed?
            && r.encoding.mimeType == "image/jpeg" && r.encoding.quality == 0.8
            && r.encoding.size.width <= 800.0 && r.encoding.size.height <= 600.0
  {
  }

  /** The unit `getSize` picks for its readable form. */
  datatype Unit = KB | MB

  /** One size report of `getSize`: the byte count and the unit of its readable form. */
  datatype SizeInfo = SizeInfo(bytes: int, readable: Unit)

  const MEGABYTE: int := 1024 * 1024

  /**
   * `getSize({size: bytes})`: the readable form is in KB below one megabyte and
   * in MB from there on, so it never reads 1024 KB or more, nor less than 1 MB.
   */
  function GetSize(bytes: int): (r: SizeInfo)
    ensures r.bytes == bytes
    ensures r.readable == KB <==> bytes < 1048576
    ensures r.readable == KB ==> (bytes as real) / 1024.0 < 1024.0
    ensures r.readable == MB ==> (bytes as real) / 1048576.0 >= 1.0
  {
    SizeInfo(bytes, if bytes < MEGABYTE then KB else MB)
  }

  /** A smaller size is never shown in a larger unit. */
  lemma GetSizeMonotone(a: int, b: int)
    requires a <= b
    ensures GetSize(b).readable == KB ==> GetSize(a).readable == KB
    ensures GetSize(a).readable == MB ==> GetSize(b).readable == MB
  {
  }

  /** The integer part of `compareSize`: the three size reports. */
  datatype SizeComparison = SizeComparison(original: SizeInfo, compressed: SizeInfo, reduction: SizeInfo)

  /**
   * `compareSize(originalSize, compressedSize)`: the reduction is what was saved,
   * so it and the compressed size add up to the original, and it is non-negative
   * exactly when compression did not grow the image.
   */
  function CompareSize(originalSize: int, compressedSize: int): (r: SizeComparison)
    ensures r.original.bytes == originalSize && r.compressed.bytes == compressedSize
    ensures r.reduction.bytes + compressedSize == originalSize
    ensures r.reduction.bytes >= 0 <==> compressedSize <= originalSize
    ensures r.reduction == GetSize(r.reduction.bytes)
    // each size is reported in the unit getSize picks for it
    ensures r.original == GetSize(originalSize) && r.compressed == GetSize(compressedSize)
  {
    SizeComparison(GetSize(originalSize), GetSize(compressedSize), GetSize(originalSize - compressedSize))
  }

  /**
   * When compression did not grow the image, the saving is never reported in a
   * larger unit than the original, nor the compressed size in a larger unit than
   * the original.
   */
  lemma ReductionUnitNoLarger(originalSize: int, compressedSize: int)
    requires 0 <= compressedSize <= originalSize
    ensures var r := CompareSize(originalSize, compressedSize);
            && (r.reduction.readable == MB ==> r.original.readable == MB)
            && (r.compressed.readable == MB ==> r.original.readable == MB)
  {
    var r := CompareSize(originalSize, compressedSize);
    GetSizeMonotone(r.reduction.bytes, originalSize);
    GetSizeMonotone(compressedSize, originalSize);
  }
}

=== FILE: preloader.dfy ===
/**
 * The image preloader of src/utils/imagePreloader.js: its state (loaded URLs,
 * in-flight loads, compression settings), the guard sequence of
 * `preloadImage`, the two ways a load ends, `setCompression`, `addToCache`,
 * `isLoaded`, `clear` and `getStats`. Each call and each load completion is one
 * atomic transition; image loading, encoding and the cache's failures are
 * oracles given to the transition that consumes them.
 */
module Preloader {
  import opened Wrappers
  import opened CacheStorage
  import Compressor
  import ServiceWorker
  import Arith

  /**
   * The preloader's fields: the keys of `loadedImages`, the keys of
   * `loadingPromises` (one shared pending load per URL), the compression flag
   * and preset, and whether the cache API exists (`'caches' in window`).
   */
  datatype Preloader = Preloader(
    loaded: set<string>,
    inFlight: set<string>,
    compressionEnabled: bool,
    options: Compressor.Preset,
    cacheAvailable: bool)

  /** The preloader together with the origin's caches, which it shares with the service worker. */
  datatype World = World(pre: Preloader, caches: Caches)

  /** The constructor: nothing loaded, nothing in flight, compression on with the BALANCED preset. */
  function Init(cacheAvailable: bool): (r: Preloader)
    ensures r.loaded == {} && r.inFlight == {}
    ensures r.compressionEnabled && Compressor.PresetNamed("BALANCED") == Some(r.options)
    ensures r.cacheAvailable == cacheAvailable
  {
    Preloader({}, {}, true, Compressor.BALANCED, cacheAvailable)
  }

  /**
   * `setCompression(enabled, preset)`: the flag always takes the given value; the
   * options change only when `preset` names a preset of the table (an empty name
   * is falsy and is ignored). Callers omitting `preset` pass "BALANCED".
   */
  function SetCompression(p: Preloader, enabled: bool, preset: string): (r: Preloader)
    ensures r.compressionEnabled == enabled
    ensures Compressor.PresetNamed(preset).Some? ==> r.options == Compressor.PresetNamed(preset).value
    ensures Compressor.PresetNamed(preset).None? ==> r.options == p.options
    ensures r.loaded == p.loaded && r.inFlight == p.inFlight && r.cacheAvailable == p.cacheAvailable
  {
    match Compressor.PresetNamed(preset)
    case Some(opts) => p.(compressionEnabled := enabled, options := opts)
    case None => p.(compressionEnabled := enabled)
  }

  /** Switching compression off with the default argument also puts the options back to BALANCED. */
  lemma DisableResetsPreset(p: Preloader)
    ensures SetCompression(p, false, "BALANCED").options == Compressor.BALANCED
  {
  }

  /** `url` is a truthy JavaScript value: present and not the empty string. */
  predicate Truthy(url: Option<string>) {
    url.Some? && url.value != ""
  }

  /**
   * What a `preloadImage` call hands back: a value at once, or the pending load
   * of a URL (the one promise shared by every caller asking for that URL).
   */
  datatype Outcome = Immediate(value: Option<string>) | Pending(url: string)

  /** One transition: the new world, the outcome, and whether this call started a load. */
  datatype Step = Step(world: World, outcome: Outcome, startedLoad: bool)

  /**
   * `checkCache(url)`: the image cache's entry for `url`, opening the cache; null
   * without the cache API or when the cache rejects (`storeFault`).
   */
  function CheckCache(w: World, url: string, storeFault: bool): (r: (Caches, Option<Response>))
    ensures !w.pre.cacheAvailable || storeFault ==> r == (w.caches, None)
    ensures w.pre.cacheAvailable && !storeFault ==> r == (Open(w.caches, IMAGE_CACHE), Match(w.caches, IMAGE_CACHE, url))
  {
    if w.pre.cacheAvailable && !storeFault then
      var c := Open(w.caches, IMAGE_CACHE);
      (c, Match(c, IMAGE_CACHE, url))
    else
      (w.caches, None)
  }

  /**
   * `preloadImage(url)`: a falsy URL answers null; a loaded URL answers itself;
   * a cached URL becomes loaded and answers itself; a URL in flight answers
   * its pending load; any other URL starts a load and answers that.
   */
  function PreloadImage(w: World, url: Option<string>, storeFault: bool): (r: Step)
    // a falsy URL: null, and nothing changes
    ensures !Truthy(url) ==> r == Step(w, Immediate(None), false)
    // a loaded URL: answered at once, without even a cache lookup
    ensures Truthy(url) && url.value in w.pre.loaded ==> r == Step(w, Immediate(url), false)
    // a cache hit: the URL becomes loaded and is answered without a load
    ensures Truthy(url) && url.value !in w.pre.loaded && CheckCache(w, url.value, storeFault).1.Some? ==>
              r == Step(World(w.pre.(loaded := w.pre.loaded + {url.value}), CheckCache(w, url.value, storeFault).0), Immediate(url), false)
    // otherwise the caller gets the URL's pending load, started by this call only if none was in flight
    ensures Truthy(url) && url.value !in w.pre.loaded && CheckCache(w, url.value, storeFault).1.None? ==>
              && r.outcome == Pending(url.value)
              && r.startedLoad == (url.value !in w.pre.inFlight)
              && r.world == World(w.pre.(inFlight := w.pre.inFlight + {url.value}), CheckCache(w, url.value, storeFault).0)
    // loaded and in-flight URLs are never dropped by a call, and the caches only gain an empty image cache
    ensures w.pre.loaded <= r.world.pre.loaded && w.pre.inFlight <= r.world.pre.inFlight
    ensures forall n, u :: Match(r.world.caches, n, u) == Match(w.caches, n, u)
  {
    if !Truthy(url) then
      Step(w, Immediate(None), false)
    else if url.value in w.pre.loaded then
      Step(w, Immediate(url), false)
    else
      var (c, cached) := CheckCache(w, url.value, storeFault);
      if cached.Some? then
        Step(World(w.pre.(loaded := w.pre.loaded + {url.value}), c), Immediate(url), false)
      else if url.value in w.pre.inFlight then
        Step(World(w.pre, c), Pending(url.value), false)
      else
        Step(World(w.pre.(inFlight := w.pre.inFlight + {url.value}), c), Pending(url.value), true)
  }

  /** How writing the compressed image into the cache ends (consulted only when compression is on). */
  datatype CacheWrite =
    | Written(blob: string)     // encoded and stored
    | EncodeFailed              // compressImage threw, or produced no blob
    | PutFailed                 // cache.put rejected (e.g. over quota)
    | OpenFailed                // caches.open rejected

  /** The content type the preloader labels its cache entries with: the options' format, else JPEG. */
  function StoredContentType(p: Preloader): string {
    Compressor.PresetAsOptions(p.options).mimeType.GetOr("image/jpeg")
  }

  /** The entry stored for an encoded image. */
  function CompressedResponse(p: Preloader, blob: string): Response {
    Response(200, "", StoredContentType(p), blob)
  }

  /**
   * `addToCache(url, img)`: with compression on, the compressed image is stored
   * under `url`; with compression off, or when anything fails, nothing is
   * stored. No failure escapes.
   */
  function AddToCache(p: Preloader, c: Caches, url: string, write: CacheWrite): (r: Caches)
    ensures p.cacheAvailable && p.compressionEnabled && write.Written? ==>
              Match(r, IMAGE_CACHE, url) == Some(CompressedResponse(p, write.blob))
    ensures !(p.cacheAvailable && p.compressionEnabled && write.Written?) ==>
              forall n, u :: Match(r, n, u) == Match(c, n, u)
    ensures forall n, u :: (n, u) != (IMAGE_CACHE, url) ==> Match(r, n, u) == Match(c, n, u)
  {
    if !p.cacheAvailable || write.OpenFailed? then c
    else
      var opened' := Open(c, IMAGE_CACHE);
      if p.compressionEnabled && write.Written? then
        Put(opened', IMAGE_CACHE, url, CompressedResponse(p, write.blob))
      else
        opened'
  }

  /**
   * The encoder request `addToCache` makes for a decoded image of size `img`:
   * the image resized within the preset's bounds, at the preset's quality, as
   * JPEG, matching the content type the entry is stored under. (The code as
   * written passes the preset without a format; see EncodingAsWritten.)
   */
  function RequestedEncoding(p: Preloader, img: Compressor.Dims): (r: Compressor.Encoding)
    requires 0.0 <= p.options.maxWidth && 0.0 <= p.options.maxHeight
    ensures r.mimeType == StoredContentType(p)
    ensures r.quality == p.options.quality
    ensures 0.0 <= img.width && 0.0 <= img.height ==> Compressor.Fits(r.size, p.options.maxWidth, p.options.maxHeight)
    ensures r.size == Compressor.Resize(img, p.options.maxWidth, p.options.maxHeight)
  {
    Compressor.CompressImage(img, Compressor.PresetOverDefaults(p.options))
  }

  /** As written: the preset object itself is the options, so the canvas gets no format. */
  function EncodingAsWritten(p: Preloader, img: Compressor.Dims): (r: Compressor.Encoding)
    requires 0.0 <= p.options.maxWidth && 0.0 <= p.options.maxHeight
    ensures r.mimeType == Compressor.CANVAS_DEFAULT_TYPE
    ensures r.size == RequestedEncoding(p, img).size && r.quality == RequestedEncoding(p, img).quality
  {
    Compressor.CompressImage(img, Compressor.PresetAsOptions(p.options))
  }

  /**
   * As written, every preloaded entry is PNG data stored under a JPEG content
   * type: the entry addToCache writes is labelled with a format the encoder was
   * not asked for. The corrected encoding agrees with the label.
   */
  lemma EncodingAsWrittenMislabels(p: Preloader, img: Compressor.Dims, c: Caches, url: string, blob: string)
    requires 0.0 <= p.options.maxWidth && 0.0 <= p.options.maxHeight
    requires p.cacheAvailable && p.compressionEnabled
    ensures var entry := Match(AddToCache(p, c, url, Written(blob)), IMAGE_CACHE, url);
            && entry.Some? && entry.value.contentType == StoredContentType(p)
            && EncodingAsWritten(p, img).mimeType != entry.value.contentType
            && RequestedEncoding(p, img).mimeType == entry.value.contentType
  {
  }

  /**
   * The `onload` handler: the URL moves from in flight to loaded and the load
   * resolves to the URL, whatever happened while caching it.
   */
  function OnLoad(w: World, url: string, write: CacheWrite): (r: (World, Option<string>))
    ensures r.1 == Some(url)
    ensures r.0.pre == w.pre.(loaded := w.pre.loaded + {url}, inFlight := w.pre.inFlight - {url})
    ensures r.0.caches == AddToCache(w.pre, w.caches, url, write)
  {
    (World(w.pre.(loaded := w.pre.loaded + {url}, inFlight := w.pre.inFlight - {url}),
           AddToCache(w.pre, w.caches, url, write)),
     Some(url))
  }

  /** The `onerror` handler: the URL leaves the in-flight set, is not loaded, and the load resolves to null. */
  function OnError(w: World, url: string): (r: (World, Option<string>))
    ensures r.1 == None
    ensures url !in r.0.pre.inFlight && (url in r.0.pre.loaded <==> url in w.pre.loaded)
    ensures r.0 == World(w.pre.(inFlight := w.pre.inFlight - {url}), w.caches)
  {
    (World(w.pre.(inFlight := w.pre.inFlight - {url}), w.caches), None)
  }

  /** `isLoaded(url)`: a loaded URL is one `preloadImage` answers at once, whatever the cache holds. */
  function IsLoaded(p: Preloader, url: string): (r: bool)
    ensures r <==> url in p.loaded
    ensures r && url != "" ==>
              forall c, f :: PreloadImage(World(p, c), Some(url), f) == Step(World(p, c), Immediate(Some(url)), false)
  {
    url in p.loaded
  }

  /** `getStats()`: the number of loaded URLs and of loads in flight. */
  datatype Stats = Stats(cached: nat, loading: nat)

  function GetStats(p: Preloader): (r: Stats)
    ensures r.cached == |p.loaded| && r.loading == |p.inFlight|
    ensures r.loading == 0 ==> forall u :: PreloadImage(World(p, map[]), Some(u), true).startedLoad <==> u != "" && u !in p.loaded
  {
    Stats(|p.loaded|, |p.inFlight|)
  }

  /**
   * `clear()`: both maps are emptied and the image cache is deleted; when the
   * deletion fails (or there is no cache API) only the memory is reset.
   */
  function Clear(w: World, deleteFails: bool): (r: World)
    ensures r.pre == w.pre.(loaded := {}, inFlight := {})
    ensures w.pre.cacheAvailable && !deleteFails ==> r.caches == Delete(w.caches, IMAGE_CACHE)
    ensures !(w.pre.cacheAvailable && !deleteFails) ==> r.caches == w.caches
  {
    World(w.pre.(loaded := {}, inFlight := {}),
          if w.pre.cacheAvailable && !deleteFails then Delete(w.caches, IMAGE_CACHE) else w.caches)
  }

  /** After a successful clear nothing is loaded, nothing is in flight, and nothing is cached. */
  lemma ClearForgets(w: World, url: string)
    requires w.pre.cacheAvailable
    ensures var r := Clear(w, false);
            && GetStats(r.pre) == Stats(0, 0) && !IsLoaded(r.pre, url)
            && Match(r.caches, IMAGE_CACHE, url).None?
  {
  }

  /** Starting a load adds exactly one in-flight entry; joining one adds none. */
  lemma StatsCountLoads(w: World, url: Option<string>, storeFault: bool)
    ensures var r := PreloadImage(w, url, storeFault);
            GetStats(r.world.pre).loading == GetStats(w.pre).loading + (if r.startedLoad then 1 else 0)
  {
  }

  /** A second call for a URL right after the first never starts a second load. */
  lemma SecondCallJoins(w: World, url: Option<string>, f1: bool, f2: bool)
    ensures !PreloadImage(PreloadImage(w, url, f1).world, url, f2).startedLoad
  {
  }

  /** The number of loads started by calling `preloadImage(url)` once per entry of `faults`. */
  function LoadsStarted(w: World, url: Option<string>, faults: seq<bool>): nat
    decreases |faults|
  {
    if |faults| == 0 then 0
    else
      var s := PreloadImage(w, url, faults[0]);
      (if s.startedLoad then 1 else 0) + LoadsStarted(s.world, url, faults[1..])
  }

  /** Any number of callers asking for one URL start at most one load, and none if it is already loaded or in flight. */
  lemma {:induction false} AtMostOneLoad(w: World, url: Option<string>, faults: seq<bool>)
    ensures LoadsStarted(w, url, faults) <= 1
    ensures Truthy(url) && url.value in w.pre.loaded + w.pre.inFlight ==> LoadsStarted(w, url, faults) == 0
    decreases |faults|
  {
    if |faults| > 0 {
      var s := PreloadImage(w, url, faults[0]);
      AtMostOneLoad(s.world, url, faults[1..]);
      if s.startedLoad {
        assert url.value in s.world.pre.inFlight;
      }
    }
  }

  /** Once a load succeeded, asking again answers the URL at once, changes nothing and starts nothing. */
  lemma LoadedIsServedFromMemory(w: World, url: string, write: CacheWrite, storeFault: bool)
    requires url != ""
    ensures var after := OnLoad(w, url, write).0;
            PreloadImage(after, Some(url), storeFault) == Step(after, Immediate(Some(url)), false)
  {
  }

  /** With compression switched off, a successful load stores nothing, whatever the preset. */
  lemma DisabledCompressionCachesNothing(w: World, preset: string, url: string, write: CacheWrite)
    ensures var off := World(SetCompression(w.pre, false, preset), w.caches);
            forall n, u :: Match(OnLoad(off, url, write).0.caches, n, u) == Match(w.caches, n, u)
  {
  }

  /**
   * The preloader and the service worker share the image cache: once a load
   * has stored its compressed entry, the worker answers a request for that URL
   * from the cache, with the stored entry and without the network.
   */
  lemma PreloadedImageServedByWorker(w: World, url: string, pathname: string, blob: string, net: ServiceWorker.Network)
    requires w.pre.cacheAvailable && w.pre.compressionEnabled && ServiceWorker.IsImage(pathname)
    ensures var after := OnLoad(w, url, Written(blob)).0;
            ServiceWorker.HandleFetch(after.caches, ServiceWorker.Request(url, pathname), net)
              == ServiceWorker.FetchResult(ServiceWorker.Respond(CompressedResponse(w.pre, blob)), after.caches, false)
  {
  }

  /** A failed load is retried by the next call, unless the URL got cached meanwhile. */
  lemma FailedLoadIsRetried(w: World, url: string)
    requires url != "" && url !in w.pre.loaded && Match(w.caches, IMAGE_CACHE, url).None?
    ensures PreloadImage(OnError(w, url).0, Some(url), false).startedLoad
  {
  }

  // ---------------------------------------------------------------- preloadImages

  /** How one `preloadImage` promise of a batch settled. */
  datatype Settlement = Fulfilled(value: Option<string>) | Rejected

  /** A settlement counted as loaded: fulfilled with a truthy value. */
  predicate Succeeded(s: Settlement) {
    s.Fulfilled? && Truthy(s.value)
  }

  /** The number of loaded settlements. */
  function CountSucceeded(rs: seq<Settlement>): (n: nat)
    ensures n <= |rs|
  {
    if |rs| == 0 then 0
    else CountSucceeded(rs[..|rs| - 1]) + (if Succeeded(rs[|rs| - 1]) then 1 else 0)
  }

  /** `urls.filter(url => url)`: exactly the truthy URLs are kept (their order is ValidUrlsAppend). */
  function ValidUrls(urls: seq<Option<string>>): (r: seq<string>)
    ensures |r| <= |urls|
    ensures forall u :: u in r <==> u != "" && Some(u) in urls
  {
    if |urls| == 0 then []
    else
      var n := |urls| - 1;
      var rest := ValidUrls(urls[..n]);
      assert urls == urls[..n] + [urls[n]];
      if Truthy(urls[n]) then rest + [urls[n].value] else rest
  }

  /**
   * The filter keeps the input's order: filtering a concatenation is the
   * concatenation of the filtered parts, and a single entry gives itself when
   * truthy and nothing otherwise.
   */
  lemma {:induction false} ValidUrlsAppend(a: seq<Option<string>>, b: seq<Option<string>>)
    ensures ValidUrls(a + b) == ValidUrls(a) + ValidUrls(b)
    ensures forall u :: ValidUrls([u]) == if Truthy(u) then [u.value] else []
    decreases |b|
  {
    ValidUrlsSingle();
    if |b| > 0 {
      var n := |b| - 1;
      var front, x := b[..n], b[n];
      var tail := if Truthy(x) then [x.value] else [];
      SplitLast(a, b);
      calc {
        ValidUrls(a + b);
        ValidUrls((a + front) + [x]);
        { ValidUrlsSnoc(a + front, x); }
        ValidUrls(a + front) + tail;
        { ValidUrlsAppend(a, front); }
        (ValidUrls(a) + ValidUrls(front)) + tail;
        { ConcatAssoc(ValidUrls(a), ValidUrls(front), tail); }
        ValidUrls(a) + (ValidUrls(front) + tail);
        { ValidUrlsSnoc(front, x); }
        ValidUrls(a) + ValidUrls(b);
      }
    } else {
      assert a + b == a;
    }
  }

  /** A non-empty `b` is its front and its last entry, also after a prefix. */
  lemma SplitLast<T>(a: seq<T>, b: seq<T>)
    requires |b| > 0
    ensures b == b[..|b| - 1] + [b[|b| - 1]]
    ensures a + b == (a + b[..|b| - 1]) + [b[|b| - 1]]
  {
  }

  lemma ConcatAssoc<T>(x: seq<T>, y: seq<T>, z: seq<T>)
    ensures (x + y) + z == x + (y + z)
  {
  }

  /** A single entry gives its URL when it is truthy and nothing otherwise. */
  lemma ValidUrlsSingle()
    ensures forall u :: ValidUrls([u]) == if Truthy(u) then [u.value] else []
  {
    forall u ensures ValidUrls([u]) == if Truthy(u) then [u.value] else [] {
      assert [u][..0] == [];
    }
  }

  /** One more entry at the end adds its URL when it is truthy. */
  lemma ValidUrlsSnoc(a: seq<Option<string>>, x: Option<string>)
    ensures ValidUrls(a + [x]) == ValidUrls(a) + if Truthy(x) then [x.value] else []
  {
    assert (a + [x])[..|a|] == a;
  }

  /** `Math.round(done / total * 100)`, in exact arithmetic (halves round up). */
  function Percentage(done: nat, total: nat): (r: int)
    requires 0 < total
    ensures done <= total ==> 0 <= r <= 100
    ensures done == total ==> r == 100
    // r is the exact percentage rounded to the nearest integer
    ensures r as real - 0.5 <= 100.0 * (done as real) / (total as real) < r as real + 0.5
  {
    PercentageBounds(done, total);
    PercentageRounds(done, total);
    (200 * done + total) / (2 * total)
  }

  /** The integer quotient lies within one half of the exact percentage. */
  lemma PercentageRounds(done: nat, total: nat)
    requires 0 < total
    ensures var q := (200 * done + total) / (2 * total);
            q as real - 0.5 <= 100.0 * (done as real) / (total as real) < q as real + 0.5
  {
    var q := (200 * done + total) / (2 * total);
    var rem := QuotientRemainder(done, total);
    Arith.MulToReal(total, q);
    WithinHalf(done as real, total as real, q as real, rem as real);
  }

  /** The division behind the percentage, as an exact equation with its remainder. */
  lemma QuotientRemainder(done: nat, total: nat) returns (rem: int)
    requires 0 < total
    ensures 0 <= rem < 2 * total
    ensures 200 * done == 2 * (total * ((200 * done + total) / (2 * total))) - total + rem
  {
    var n, m := 200 * done + total, 2 * total;
    var q := n / m;
    assert n == m * q + n % m;
    rem := n % m;
  }

  /** The real-number half of the rounding bound. */
  lemma WithinHalf(D: real, T: real, Q: real, R: real)
    requires 0.0 < T && 0.0 <= R < 2.0 * T
    requires 200.0 * D == 2.0 * (T * Q) - T + R
    ensures Q - 0.5 <= 100.0 * D / T < Q + 0.5
  {
    var x := 100.0 * D / T;
    assert x * T == T * Q - 0.5 * T + 0.5 * R;
    assert (Q - 0.5) * T == T * Q - 0.5 * T;
    assert (Q + 0.5) * T == T * Q + 0.5 * T;
    Arith.CancelPositive(Q - 0.5, x, T);
    Arith.CancelPositive(x, Q + 0.5, T);
  }

  lemma PercentageBounds(done: nat, total: nat)
    requires 0 < total
    ensures done <= total ==> 0 <= (200 * done + total) / (2 * total) <= 100
    ensures done == total ==> (200 * done + total) / (2 * total) == 100
  {
    var n := 200 * done + total;
    Arith.DivAtLeast(n, 2 * total, 0);
    if done <= total {
      Arith.DivBelow(n, 2 * total, 100);
    }
    if done == total {
      Arith.DivAtLeast(n, 2 * total, 100);
    }
  }

  /** The argument of one `onProgress` call. */
  datatype Progress = Progress(total: nat, processed: nat, succeeded: nat, failed: nat, percentage: int)

  /** The progress report after the first `done` settlements. */
  function Snapshot(results: seq<Settlement>, done: nat): (r: Progress)
    requires 0 < done <= |results|
    ensures r.succeeded + r.failed == r.processed == done && r.total == |results|
  {
    var ok := CountSucceeded(results[..done]);
    Progress(|results|, done, ok, done - ok, Percentage(done, |results|))
  }

  /** The value `preloadImages` resolves to. */
  datatype Summary = Summary(total: nat, loaded: nat, failed: nat, urls: seq<string>, results: seq<Settlement>)

  /** The batch width: at most this many loads run at once. */
  const BATCH_SIZE: nat := 30

  /** The batches laid end to end. */
  function Flatten(batches: seq<seq<string>>): seq<string> {
    if |batches| == 0 then [] else Flatten(batches[..|batches| - 1]) + batches[|batches| - 1]
  }

  function MinNat(a: nat, b: nat): nat {
    if a <= b then a else b
  }

  /** Every batch is non-empty and at most 30 wide. */
  predicate BatchWidths(batches: seq<seq<string>>) {
    forall k :: 0 <= k < |batches| ==> 0 < |batches[k]| <= BATCH_SIZE
  }

  /** Every batch is exactly 30 wide. */
  predicate AllFull(batches: seq<seq<string>>) {
    forall k :: 0 <= k < |batches| ==> |batches[k]| == BATCH_SIZE
  }

  /** Adding a batch after full ones keeps every batch but the last full. */
  lemma AddBatch(batches: seq<seq<string>>, batch: seq<string>)
    requires BatchWidths(batches) && AllFull(batches) && 0 < |batch| <= BATCH_SIZE
    ensures var more := batches + [batch];
            && BatchWidths(more) && AllFull(more[..|more| - 1])
            && (|batch| == BATCH_SIZE ==> AllFull(more))
  {
    assert (batches + [batch])[..|batches|] == batches;
  }

  /** Appending the next slice of `all` as a batch extends the flattened prefix to `end`. */
  lemma FlattenAppend(batches: seq<seq<string>>, all: seq<string>, start: nat, end: nat)
    requires start <= end <= |all| && Flatten(batches) == all[..start]
    ensures Flatten(batches + [all[start..end]]) == all[..end]
  {
    assert (batches + [all[start..end]])[..|batches|] == batches;
    assert all[..start] + all[start..end] == all[..end];
  }

  /**
   * `preloadImages(urls, onProgress)`: the truthy URLs are loaded in consecutive
   * batches of 30, each settled before the next starts; `settled[i]` is how the
   * load of the i-th truthy URL settled. Every settlement is counted as loaded or
   * failed and, when a callback is given, reported once, in order.
   */
  method PreloadImages(urls: seq<Option<string>>, settled: seq<Settlement>, hasCallback: bool)
    returns (summary: Summary, batches: seq<seq<string>>, reports: seq<Progress>)
    requires |settled| == |ValidUrls(urls)|
    ensures summary.urls == ValidUrls(urls) && summary.total == |summary.urls|
    ensures summary.results == settled
    ensures summary.loaded == CountSucceeded(settled)
    ensures summary.loaded + summary.failed == summary.total
    // the batches cover the URLs in order, all of width 30 but the last, which is not empty
    ensures Flatten(batches) == summary.urls
    ensures forall k :: 0 <= k < |batches| ==> 0 < |batches[k]| <= BATCH_SIZE
    ensures forall k :: 0 <= k < |batches| - 1 ==> |batches[k]| == BATCH_SIZE
    // one report per URL, the count of processed URLs rising by one each time
    ensures hasCallback ==> |reports| == summary.total
    ensures hasCallback ==> forall k :: 0 <= k < |reports| ==> reports[k] == Snapshot(settled, k + 1)
    ensures !hasCallback ==> reports == []
    ensures hasCallback && summary.total > 0 ==> reports[|reports| - 1].percentage == 100
  {
    var valid := ValidUrls(urls);
    var total := |valid|;
    var loaded, failed := 0, 0;
    var results: seq<Settlement> := [];
    batches, reports := [], [];
    var i := 0;
    while i < total
      invariant BatchesSoFar(valid, settled, hasCallback, i, loaded, failed, results, batches, reports)
    {
      loaded, failed, results, batches, reports := NextBatch(valid, settled, hasCallback, i, loaded, failed, results, batches, reports);
      i := i + BATCH_SIZE;
    }
    BatchesComplete(valid, settled, hasCallback, i, loaded, failed, results, batches, reports);
    summary := Summary(total, loaded, failed, valid, results);
  }

  /** Once every URL is dispatched, all are settled, counted and reported, and the batches cover them. */
  lemma BatchesComplete(valid: seq<string>, settled: seq<Settlement>, hasCallback: bool, i: nat,
                        loaded: nat, failed: nat, results: seq<Settlement>, batches: seq<seq<string>>, reports: seq<Progress>)
    requires i >= |valid|
    requires BatchesSoFar(valid, settled, hasCallback, i, loaded, failed, results, batches, reports)
    ensures results == settled && Flatten(batches) == valid
    ensures loaded == CountSucceeded(settled) && loaded + failed == |valid|
    ensures forall k :: 0 <= k < |batches| ==> 0 < |batches[k]| <= BATCH_SIZE
    ensures forall k :: 0 <= k < |batches| - 1 ==> |batches[k]| == BATCH_SIZE
    ensures hasCallback ==> |reports| == |valid|
    ensures !hasCallback ==> reports == []
    ensures forall k :: 0 <= k < |reports| ==> reports[k] == Snapshot(settled, k + 1)
    ensures hasCallback && |valid| > 0 ==> reports[|reports| - 1].percentage == 100
  {
    assert results == settled;
    assert valid[..|results|] == valid;
    if |batches| > 0 {
      forall k | 0 <= k < |batches| - 1 ensures |batches[k]| == BATCH_SIZE {
        assert batches[..|batches| - 1][k] == batches[k];
      }
    }
  }

  /**
   * What the loop of `preloadImages` has done once `i` URLs are dispatched: the
   * first min(i, total) URLs are settled, counted and reported, and split into
   * batches of 30 of which only a last, partial one may be shorter.
   */
  predicate BatchesSoFar(valid: seq<string>, settled: seq<Settlement>, hasCallback: bool, i: nat,
                         loaded: nat, failed: nat, results: seq<Settlement>, batches: seq<seq<string>>, reports: seq<Progress>)
  {
    && |settled| == |valid|
    && i == BATCH_SIZE * |batches|
    && |results| == MinNat(i, |valid|)
    && results == settled[..|results|]
    && Flatten(batches) == valid[..|results|]
    && BatchWidths(batches)
    && (i <= |valid| ==> AllFull(batches))
    && (|batches| > 0 ==> AllFull(batches[..|batches| - 1]))
    && loaded == CountSucceeded(results) && loaded + failed == |results|
    && |reports| == (if hasCallback then |results| else 0)
    && forall k :: 0 <= k < |reports| ==> reports[k] == Snapshot(settled, k + 1)
  }

  /** One turn of the loop: dispatch, settle, count and report the next batch of up to 30 URLs. */
  method NextBatch(valid: seq<string>, settled: seq<Settlement>, hasCallback: bool, i: nat,
                   loaded0: nat, failed0: nat, results0: seq<Settlement>, batches0: seq<seq<string>>, reports0: seq<Progress>)
    returns (loaded: nat, failed: nat, results: seq<Settlement>, batches: seq<seq<string>>, reports: seq<Progress>)
    requires i < |valid|
    requires BatchesSoFar(valid, settled, hasCallback, i, loaded0, failed0, results0, batches0, reports0)
    ensures BatchesSoFar(valid, settled, hasCallback, i + BATCH_SIZE, loaded, failed, results, batches, reports)
    ensures batches == batches0 + [valid[i..MinNat(i + BATCH_SIZE, |valid|)]]
  {
    var end := MinNat(i + BATCH_SIZE, |valid|);
    var batch := valid[i..end];
    loaded, failed, reports := SettleBatch(settled, i, end, loaded0, failed0, reports0, hasCallback);
    assert settled[..i] + settled[i..end] == settled[..end];
    results := results0 + settled[i..end];
    assert |results0| == i && |results| == end == MinNat(i + BATCH_SIZE, |valid|);
    FlattenAppend(batches0, valid, i, end);
    AddBatch(batches0, batch);
    batches := batches0 + [batch];
    assert i + BATCH_SIZE == BATCH_SIZE * |batches|;
  }

  /**
   * The `forEach` over one settled batch: each settlement is counted as loaded
   * or failed, and reported when there is a callback.
   */
  method SettleBatch(settled: seq<Settlement>, start: nat, end: nat, loaded0: nat, failed0: nat, reports0: seq<Progress>, hasCallback: bool)
    returns (loaded: nat, failed: nat, reports: seq<Progress>)
    requires start <= end <= |settled|
    requires loaded0 == CountSucceeded(settled[..start]) && loaded0 + failed0 == start
    requires |reports0| == (if hasCallback then start else 0)
    requires forall k :: 0 <= k < |reports0| ==> reports0[k] == Snapshot(settled, k + 1)
    ensures loaded == CountSucceeded(settled[..end]) && loaded + failed == end
    ensures |reports| == (if hasCallback then end else 0)
    ensures forall k :: 0 <= k < |reports| ==> reports[k] == Snapshot(settled, k + 1)
  {
    loaded, failed, reports := loaded0, failed0, reports0;
    var j := start;
    while j < end
      invariant start <= j <= end
      invariant loaded == CountSucceeded(settled[..j]) && loaded + failed == j
      invariant |reports| == (if hasCallback then j else 0)
      invariant forall k :: 0 <= k < |reports| ==> reports[k] == Snapshot(settled, k + 1)
    {
      assert settled[..j + 1][..j] == settled[..j];
      if Succeeded(settled[j]) {
        loaded := loaded + 1;
      } else {
        failed := failed + 1;
      }
      if hasCallback {
        reports := reports + [Progress(|settled|, loaded + failed, loaded, failed, Percentage(loaded + failed, |settled|))];
      }
      j := j + 1;
    }
  }

  /** Successive reports never lose a success and the processed count climbs by exactly one. */
  lemma {:induction false} SnapshotsAdvance(results: seq<Settlement>, done: nat)
    requires 0 < done < |results|
    ensures Snapshot(results, done + 1).processed == Snapshot(results, done).processed + 1
    ensures Snapshot(results, done).succeeded <= Snapshot(results, done + 1).succeeded <= Snapshot(results, done).succeeded + 1
    ensures Snapshot(results, done).percentage <= Snapshot(results, done + 1).percentage
  {
    assert results[..done + 1][..done] == results[..done];
    var t := |results|;
    assert 200 * done + t <= 200 * (done + 1) + t;
    Arith.DivMonotone(200 * done + t, 200 * (done + 1) + t, 2 * t);
  }

  /** Three URLs with the second failing: the last report shows three processed, two loaded, one failed, 100%. */
  lemma ProgressExample(u1: string, u3: string)
    requires u1 != "" && u3 != ""
    ensures var settled := [Fulfilled(Some(u1)), Fulfilled(None), Fulfilled(Some(u3))];
            && Snapshot(settled, 1) == Progress(3, 1, 1, 0, 33)
            && Snapshot(settled, 2) == Progress(3, 2, 1, 1, 67)
            && Snapshot(settled, 3) == Progress(3, 3, 2, 1, 100)
  {
    var settled := [Fulfilled(Some(u1)), Fulfilled(None), Fulfilled(Some(u3))];
    assert settled[..3][..2] == settled[..2];
    assert settled[..2][..1] == settled[..1];
    assert settled[..1][..0] == [];
    assert Percentage(1, 3) == 33 && Percentage(2, 3) == 67 && Percentage(3, 3) == 100;
  }
}

=== FILE: registration.dfy ===
/**
 * The page-side cache helpers of src/utils/serviceWorkerRegistration.js:
 * `clearImageCache`, `cacheImages` and `isImageCached`, over the same
 * abstract caches as the service worker. `cachesPresent` stands for
 * `'caches' in window`; `openFails` for a rejected `caches.open`.
 */
module Registration {
  import opened Wrappers
  import opened Strings
  import opened CacheStorage
  import ServiceWorker

  /** `clearImageCache`: delete every cache whose name contains "images"; keep every other cache. */
  function ClearImageCache(cachesPresent: bool, c: Caches): (r: Caches)
    ensures !cachesPresent ==> r == c
    ensures cachesPresent ==> forall n :: n in r <==> n in c && !Includes(n, "images")
    ensures forall n :: n in r ==> r[n] == c[n]
  {
    if cachesPresent then map n | n in c && !Includes(n, "images") :: c[n] else c
  }

  /** The image cache and the worker's old cache are both cleared; a cache named otherwise is kept. */
  lemma ClearImageCacheExample(img: Cache, previous: Cache, other: Cache)
    ensures ClearImageCache(true, map[IMAGE_CACHE := img, "avto-test-images-v1" := previous, "fonts" := other])
            == map["fonts" := other]
  {
    assert OccursAt(IMAGE_CACHE, "images", 10);
    assert OccursAt("avto-test-images-v1", "images", 10);
    assert !Includes("fonts", "images");
  }

  /** One URL of `cacheImages`: `cache.put(url, response)` when the fetch gave an ok response; any failure is swallowed. */
  function CacheOne(c: Caches, url: string, net: ServiceWorker.Network): (r: Caches)
    requires IMAGE_CACHE in c
    ensures IMAGE_CACHE in r
    ensures net.Delivered? && Ok(net.response) ==> Match(r, IMAGE_CACHE, url) == Some(net.response)
    ensures !(net.Delivered? && Ok(net.response)) ==> r == c
    ensures forall n, u :: (n, u) != (IMAGE_CACHE, url) ==> Match(r, n, u) == Match(c, n, u)
  {
    if net.Delivered? && Ok(net.response) then Put(c, IMAGE_CACHE, url, net.response) else c
  }

  /** The per-URL writes of `cacheImages`, taken in list order (for a repeated URL the last ok response wins). */
  function CacheEach(c: Caches, urls: seq<string>, net: seq<ServiceWorker.Network>): (r: Caches)
    requires IMAGE_CACHE in c && |net| == |urls|
    ensures IMAGE_CACHE in r && r.Keys == c.Keys
    ensures forall n, u :: (n == IMAGE_CACHE ==> u !in urls) ==> Match(r, n, u) == Match(c, n, u)
    decreases |urls|
  {
    if |urls| == 0 then c
    else
      var last := |urls| - 1;
      CacheOne(CacheEach(c, urls[..last], net[..last]), urls[last], net[last])
  }

  /** A URL is stored iff some fetch of it gave an ok response, and then it holds the last such response. */
  lemma {:induction false} CacheEachStoresOkResponses(c: Caches, urls: seq<string>, net: seq<ServiceWorker.Network>, i: nat)
    requires IMAGE_CACHE in c && |net| == |urls| && i < |urls|
    requires net[i].Delivered? && Ok(net[i].response)
    requires forall j :: i < j < |urls| && urls[j] == urls[i] ==> !(net[j].Delivered? && Ok(net[j].response))
    ensures Match(CacheEach(c, urls, net), IMAGE_CACHE, urls[i]) == Some(net[i].response)
    decreases |urls|
  {
    var last := |urls| - 1;
    var before := CacheEach(c, urls[..last], net[..last]);
    assert CacheEach(c, urls, net) == CacheOne(before, urls[last], net[last]);
    if i < last {
      var us, ns := urls[..last], net[..last];
      forall j | i < j < |us| && us[j] == us[i]
        ensures !(ns[j].Delivered? && Ok(ns[j].response))
      {
        assert us[j] == urls[j] && ns[j] == net[j];
      }
      CacheEachStoresOkResponses(c, us, ns, i);
      assert Match(before, IMAGE_CACHE, urls[i]) == Some(net[i].response);
    }
  }

  /** The fetch at position `i` gave an ok response and no later fetch of the same URL did. */
  predicate LastOk(urls: seq<string>, net: seq<ServiceWorker.Network>, i: nat)
    requires |net| == |urls| && i < |urls|
  {
    && net[i].Delivered? && Ok(net[i].response)
    && forall j :: i < j < |urls| && urls[j] == urls[i] ==> !(net[j].Delivered? && Ok(net[j].response))
  }

  /** No fetch of `url` gave an ok response. */
  predicate NeverOk(urls: seq<string>, net: seq<ServiceWorker.Network>, url: string)
    requires |net| == |urls|
  {
    forall j :: 0 <= j < |urls| && urls[j] == url ==> !(net[j].Delivered? && Ok(net[j].response))
  }

  /** CacheEachStoresOkResponses and CacheEachSkipsFailures for every position and URL at once. */
  lemma CacheEachOutcome(c: Caches, urls: seq<string>, net: seq<ServiceWorker.Network>)
    requires IMAGE_CACHE in c && |net| == |urls|
    ensures forall i :: 0 <= i < |urls| && LastOk(urls, net, i) ==>
              Match(CacheEach(c, urls, net), IMAGE_CACHE, urls[i]) == Some(net[i].response)
    ensures forall u :: NeverOk(urls, net, u) ==>
              Match(CacheEach(c, urls, net), IMAGE_CACHE, u) == Match(c, IMAGE_CACHE, u)
  {
    forall i | 0 <= i < |urls| && LastOk(urls, net, i)
      ensures Match(CacheEach(c, urls, net), IMAGE_CACHE, urls[i]) == Some(net[i].response)
    {
      CacheEachStoresOkResponses(c, urls, net, i);
    }
    forall u | NeverOk(urls, net, u)
      ensures Match(CacheEach(c, urls, net), IMAGE_CACHE, u) == Match(c, IMAGE_CACHE, u)
    {
      CacheEachSkipsFailures(c, urls, net, u);
    }
  }

  /** A URL none of whose fetches gave an ok response keeps the entry it had. */
  lemma {:induction false} CacheEachSkipsFailures(c: Caches, urls: seq<string>, net: seq<ServiceWorker.Network>, url: string)
    requires IMAGE_CACHE in c && |net| == |urls|
    requires forall j :: 0 <= j < |urls| && urls[j] == url ==> !(net[j].Delivered? && Ok(net[j].response))
    ensures Match(CacheEach(c, urls, net), IMAGE_CACHE, url) == Match(c, IMAGE_CACHE, url)
    decreases |urls|
  {
    if |urls| > 0 {
      var last := |urls| - 1;
      CacheEachSkipsFailures(c, urls[..last], net[..last], url);
    }
  }

  /**
   * `cacheImages(urls)`: false, touching nothing, without the cache API or with
   * an empty list, or false when the image cache cannot be opened. Otherwise
   * each URL is fetched and stored on an ok response, failures are swallowed,
   * and the answer is true even if nothing was stored.
   */
  function CacheImages(cachesPresent: bool, openFails: bool, c: Caches, urls: seq<string>, net: seq<ServiceWorker.Network>): (r: (bool, Caches))
    requires |net| == |urls|
    ensures !cachesPresent || |urls| == 0 ==> r == (false, c)
    ensures cachesPresent && |urls| > 0 && openFails ==> r == (false, c)
    ensures cachesPresent && |urls| > 0 && !openFails ==> r.0 && IMAGE_CACHE in r.1 && r.1.Keys == c.Keys + {IMAGE_CACHE}
    ensures forall n, u :: (n == IMAGE_CACHE ==> u !in urls) ==> Match(r.1, n, u) == Match(c, n, u)
    // once the cache is open, each URL's last ok response is stored and a URL never fetched ok keeps its entry
    ensures cachesPresent && |urls| > 0 && !openFails ==>
              && (forall i :: 0 <= i < |urls| && LastOk(urls, net, i) ==> Match(r.1, IMAGE_CACHE, urls[i]) == Some(net[i].response))
              && (forall u :: NeverOk(urls, net, u) ==> Match(r.1, IMAGE_CACHE, u) == Match(c, IMAGE_CACHE, u))
    ensures cachesPresent && |urls| > 0 && !openFails ==> r == (true, CacheEach(Open(c, IMAGE_CACHE), urls, net))
  {
    if cachesPresent && |urls| > 0 then
      if openFails then (false, c)
      else
        CacheEachOutcome(Open(c, IMAGE_CACHE), urls, net);
        (true, CacheEach(Open(c, IMAGE_CACHE), urls, net))
    else
      (false, c)
  }

  /** Every fetch failing still answers true, and the caches gain at most an empty image cache. */
  lemma CacheImagesAllFailing(c: Caches, urls: seq<string>, net: seq<ServiceWorker.Network>)
    requires |net| == |urls| && |urls| > 0 && forall i :: 0 <= i < |net| ==> net[i].Failed?
    ensures CacheImages(true, false, c, urls, net) == (true, Open(c, IMAGE_CACHE))
  {
    var r := CacheEach(Open(c, IMAGE_CACHE), urls, net);
    forall u ensures Match(r, IMAGE_CACHE, u) == Match(Open(c, IMAGE_CACHE), IMAGE_CACHE, u) {
      CacheEachSkipsFailures(Open(c, IMAGE_CACHE), urls, net, u);
    }
    forall n, u | n != IMAGE_CACHE
      ensures Match(r, n, u) == Match(Open(c, IMAGE_CACHE), n, u)
    {
    }
    MatchExtensional(r, Open(c, IMAGE_CACHE));
  }

  /**
   * `isImageCached(url)`: whether the image cache holds `url`; false without the
   * cache API or when opening fails. Opening creates the image cache if needed.
   */
  function IsImageCached(cachesPresent: bool, openFails: bool, c: Caches, url: string): (r: (bool, Caches))
    ensures r.0 <==> cachesPresent && !openFails && Match(c, IMAGE_CACHE, url).Some?
    ensures forall n, u :: Match(r.1, n, u) == Match(c, n, u)
    ensures !cachesPresent || openFails ==> r.1 == c
  {
    if cachesPresent && !openFails then
      var opened' := Open(c, IMAGE_CACHE);
      (Match(opened', IMAGE_CACHE, url).Some?, opened')
    else
      (false, c)
  }

  /** After the page clears the image caches, no cache whose name contains "images" holds any URL. */
  lemma ClearedImageCachesMiss(c: Caches)
    ensures forall n, url :: Includes(n, "images") ==> Match(ClearImageCache(true, c), n, url).None?
    ensures forall url :: !IsImageCached(true, false, ClearImageCache(true, c), url).0
  {
    assert OccursAt(IMAGE_CACHE, "images", 10);
  }

  /** After CLEAR_CACHE in the worker, the page finds no image cached. */
  lemma ClearThenNotCached(c: Caches, present: bool, openFails: bool, url: string)
    ensures !IsImageCached(present, openFails, ServiceWorker.HandleMessage(c, ServiceWorker.ClearCache, []).0, url).0
  {
  }

  /** After the worker fetched an image with status 200, the page finds it cached. */
  lemma FetchedImageIsCached(c: Caches, req: ServiceWorker.Request, resp: Response)
    requires ServiceWorker.IsImage(req.pathname) && resp.status == 200
    ensures IsImageCached(true, false, ServiceWorker.HandleFetch(c, req, ServiceWorker.Delivered(resp)).caches, req.url).0
  {
  }
}

=== FILE: service_worker.dfy ===
/**
 * The service worker of public/service-worker.js: the image classifier, the
 * purge of stale caches on activation, the cache-first fetch decision for
 * images, and the CLEAR_CACHE / CACHE_IMAGES control messages. The network is
 * an oracle: each fetch is given the outcome it will have.
 */
module ServiceWorker {
  import opened Wrappers
  import opened Strings
  import opened CacheStorage

  // ---------------------------------------------------------------- classifier

  /** The alternatives of the image pattern `\.(jpg|jpeg|png|gif|webp|svg)$`. */
  const IMAGE_EXTENSIONS := ["jpg", "jpeg", "png", "gif", "webp", "svg"]

  /** What the case-insensitive image pattern accepts: a path ending in a dot and one of the extensions. */
  ghost predicate HasImageExtension(pathname: string) {
    exists e :: e in IMAGE_EXTENSIONS && EndsWith(Lower(pathname), "." + e)
  }

  /** Suffix test comparing characters from the end, ignoring ASCII case. */
  function EndsWithIgnoringCase(s: string, suffix: string): bool
    decreases |suffix|
  {
    if |suffix| == 0 then true
    else if |s| == 0 then false
    else LowerAscii(s[|s| - 1]) == LowerAscii(suffix[|suffix| - 1])
         && EndsWithIgnoringCase(s[..|s| - 1], suffix[..|suffix| - 1])
  }

  predicate IsLowerCase(s: string) {
    forall i :: 0 <= i < |s| ==> LowerAscii(s[i]) == s[i]
  }

  /** Against a lower-case suffix, the character-wise comparison is a suffix test on the folded path. */
  lemma {:induction false} EndsWithIgnoringCaseIsFoldedSuffix(s: string, suffix: string)
    requires IsLowerCase(suffix)
    ensures EndsWithIgnoringCase(s, suffix) <==> EndsWith(Lower(s), suffix)
    decreases |suffix|
  {
    if |suffix| > 0 && |s| > 0 {
      var s', suffix' := s[..|s| - 1], suffix[..|suffix| - 1];
      EndsWithIgnoringCaseIsFoldedSuffix(s', suffix');
      assert Lower(s') == Lower(s)[..|s| - 1];
      if |suffix| <= |s| {
        var tail := Lower(s)[|s| - |suffix|..];
        assert tail == Lower(s')[|s'| - |suffix'|..] + [LowerAscii(s[|s| - 1])];
        assert suffix == suffix' + [suffix[|suffix| - 1]];
      }
    }
  }

  /** Tries the alternatives from index `k` on. */
  function MatchesFrom(pathname: string, k: nat): (r: bool)
    requires k <= |IMAGE_EXTENSIONS|
    ensures r <==> exists i :: k <= i < |IMAGE_EXTENSIONS| && EndsWith(Lower(pathname), "." + IMAGE_EXTENSIONS[i])
    decreases |IMAGE_EXTENSIONS| - k
  {
    if k == |IMAGE_EXTENSIONS| then false
    else
      var alt := "." + IMAGE_EXTENSIONS[k];
      EndsWithIgnoringCaseIsFoldedSuffix(pathname, alt);
      EndsWithIgnoringCase(pathname, alt) || MatchesFrom(pathname, k + 1)
  }

  /**
   * `isImage`: the request's pathname ends in .jpg, .jpeg, .png, .gif, .webp or
   * .svg in any letter case. The pathname excludes the query string, so the
   * query never matters.
   */
  function IsImage(pathname: string): (r: bool)
    ensures r <==> HasImageExtension(pathname)
  {
    var r := MatchesFrom(pathname, 0);
    assert r ==> HasImageExtension(pathname);
    assert HasImageExtension(pathname) ==> r by {
      if HasImageExtension(pathname) {
        var e :| e in IMAGE_EXTENSIONS && EndsWith(Lower(pathname), "." + e);
        var i :| 0 <= i < |IMAGE_EXTENSIONS| && IMAGE_EXTENSIONS[i] == e;
      }
    }
    r
  }

  /** Letter case is ignored. */
  lemma UpperCaseExtensionIsImage()
    ensures IsImage("/img/q1.PNG")
  {
    var l := Lower("/img/q1.PNG");
    assert l == "/img/q1.png";
    assert l[|l| - 4..] == "." + IMAGE_EXTENSIONS[2];
  }

  /** The extension must come last: a further suffix after it is not an image. */
  lemma ExtensionMustBeLast()
    ensures !IsImage("/q.png.txt")
  {
    var l := Lower("/q.png.txt");
    assert l == "/q.png.txt";
    assert l[|l| - 4..] == ".txt" && l[|l| - 5..] == "g.txt";
  }

  // ---------------------------------------------------------------- activation

  /** A cache left by an earlier deployment: the app's prefix, but not the image cache. */
  predicate IsStale(name: string) {
    name != IMAGE_CACHE && StartsWith(name, "avto-test-")
  }

  /** The activate handler: delete every stale cache, keep every other cache as it is. */
  function Activate(c: Caches): (r: Caches)
    ensures forall n :: n in r <==> n in c && !IsStale(n)
    ensures forall n :: n in r ==> r[n] == c[n]
  {
    map n | n in c && !IsStale(n) :: c[n]
  }

  /**
   * Activation never touches the image cache, leaves no stale cache behind,
   * and a second activation changes nothing.
   */
  lemma ActivateKeepsImagesAndSettles(c: Caches)
    ensures forall u :: Match(Activate(c), IMAGE_CACHE, u) == Match(c, IMAGE_CACHE, u)
    ensures forall n :: n in Activate(c) ==> !IsStale(n)
    ensures Activate(Activate(c)) == Activate(c)
  {
    assert !IsStale(IMAGE_CACHE);
    var once := Activate(c);
    assert Activate(once).Keys == once.Keys;
  }

  /** The worker's own old cache name is purged; the image cache and foreign caches survive. */
  lemma ActivateExample(img: Cache, previous: Cache, other: Cache)
    ensures var r := Activate(map["avto-test-images" := img, "avto-test-images-v1" := previous, "other-app" := other]);
            r == map["avto-test-images" := img, "other-app" := other]
  {
    assert IsStale("avto-test-images-v1");
    assert !StartsWith("other-app", "avto-test-");
  }

  // ---------------------------------------------------------------- fetch

  /** An intercepted request: its full URL (the cache key) and the URL's pathname. */
  datatype Request = Request(url: string, pathname: string)

  /** What the network does with a fetch: deliver a response (any status), or fail. */
  datatype Network = Delivered(response: Response) | Failed

  /** What the page receives: a response, or a rejected fetch. */
  datatype Reply = Respond(response: Response) | NetworkError

  /** The reply, the caches afterwards, and whether the network was asked. */
  datatype FetchResult = FetchResult(reply: Reply, caches: Caches, networkUsed: bool)

  /** The stand-in the worker answers with when fetching an image fails. */
  const IMAGE_FETCH_FAILED := Response(404, "Image not found", "text/plain;charset=UTF-8", "Image fetch failed")

  /** `fetch(request)` passed straight through. */
  function PassThrough(net: Network): Reply {
    match net
    case Delivered(resp) => Respond(resp)
    case Failed => NetworkError
  }

  /** The fetch handler. `net` is what the network would do if asked. */
  function HandleFetch(c: Caches, req: Request, net: Network): (r: FetchResult)
    // non-images: straight to the network; the caches are neither read nor written
    ensures !IsImage(req.pathname) ==> r == FetchResult(PassThrough(net), c, true)
    // images: a hit is answered from the cache without the network
    ensures IsImage(req.pathname) && Match(c, IMAGE_CACHE, req.url).Some? ==>
              r == FetchResult(Respond(c[IMAGE_CACHE][req.url]), c, false)
    // images: on a miss the network's response is returned as it is, stored only when its status is 200
    ensures IsImage(req.pathname) && Match(c, IMAGE_CACHE, req.url).None? && net.Delivered? ==>
              && r.reply == Respond(net.response) && r.networkUsed
              && Match(r.caches, IMAGE_CACHE, req.url) == (if net.response.status == 200 then Some(net.response) else None)
              && forall n, u :: (n, u) != (IMAGE_CACHE, req.url) ==> Match(r.caches, n, u) == Match(c, n, u)
    // images: a network failure becomes the 404 stand-in, and nothing is stored
    ensures IsImage(req.pathname) && Match(c, IMAGE_CACHE, req.url).None? && net.Failed? ==>
              r == FetchResult(Respond(IMAGE_FETCH_FAILED), Open(c, IMAGE_CACHE), true)
    // whatever happens, no cache other than the image cache changes, and no entry is lost
    ensures forall n :: n in c ==> n in r.caches
    ensures forall n :: n != IMAGE_CACHE ==> (n in r.caches <==> n in c) && (n in c ==> r.caches[n] == c[n])
  {
    if !IsImage(req.pathname) then
      FetchResult(PassThrough(net), c, true)
    else
      var cache := Open(c, IMAGE_CACHE);
      match Match(cache, IMAGE_CACHE, req.url)
      case Some(hit) => FetchResult(Respond(hit), cache, false)
      case None =>
        match net
        case Failed => FetchResult(Respond(IMAGE_FETCH_FAILED), cache, true)
        case Delivered(resp) =>
          var stored := if resp.status == 200 then Put(cache, IMAGE_CACHE, req.url, resp) else cache;
          FetchResult(Respond(resp), stored, true)
  }

  /**
   * Cache-first: once an image was fetched with status 200, the next request for
   * it is answered with the same response and the network is not asked,
   * whatever it would do.
   */
  lemma SecondFetchIsServedFromCache(c: Caches, req: Request, resp: Response, later: Network)
    requires IsImage(req.pathname) && resp.status == 200
    ensures var first := HandleFetch(c, req, Delivered(resp));
            HandleFetch(first.caches, req, later) == FetchResult(Respond(first.reply.response), first.caches, false)
  {
  }

  /** A failed or non-200 fetch leaves the image uncached, so the next request asks the network again. */
  lemma UncachedFetchIsRetried(c: Caches, req: Request, net: Network, later: Network)
    requires IsImage(req.pathname) && Match(c, IMAGE_CACHE, req.url).None?
    requires net.Failed? || net.response.status != 200
    ensures HandleFetch(HandleFetch(c, req, net).caches, req, later).networkUsed
  {
  }

  // ---------------------------------------------------------------- messages

  /** The control messages the page posts. */
  datatype Message = ClearCache | CacheImages(urls: seq<string>) | Unrecognised

  /**
   * The replies posted back: `{success: true}` after clearing, `{success: true,
   * count}` after caching, `{success: false, error}` when caching failed. The
   * error text is host-defined and is not modelled.
   */
  datatype Ack = Cleared | Cached(count: nat) | CacheFailed {
    predicate Success() {
      !CacheFailed?
    }
  }

  /** A response `cache.addAll` accepts: an ok status other than 206 (partial content). */
  predicate Storable(net: Network) {
    net.Delivered? && Ok(net.response) && net.response.status != 206
  }

  predicate Distinct(urls: seq<string>) {
    forall i, j :: 0 <= i < j < |urls| ==> urls[i] != urls[j]
  }

  /** `cache.addAll(urls)` succeeds: every fetch gave a storable response and no URL is repeated. */
  predicate AddAllSucceeds(urls: seq<string>, net: seq<Network>)
    requires |net| == |urls|
  {
    Distinct(urls) && forall i :: 0 <= i < |net| ==> Storable(net[i])
  }

  /** Stores `urls[i]` with its delivered response, in order, in the image cache. */
  function PutAll(c: Caches, urls: seq<string>, net: seq<Network>): (r: Caches)
    requires |net| == |urls| && forall i :: 0 <= i < |net| ==> net[i].Delivered?
    requires Distinct(urls)
    ensures forall i :: 0 <= i < |urls| ==> Match(r, IMAGE_CACHE, urls[i]) == Some(net[i].response)
    ensures forall n, u :: (n == IMAGE_CACHE ==> u !in urls) ==> Match(r, n, u) == Match(c, n, u)
    ensures r.Keys == c.Keys + {IMAGE_CACHE}
    decreases |urls|
  {
    if |urls| == 0 then Open(c, IMAGE_CACHE)
    else
      var last := |urls| - 1;
      var rest := PutAll(c, urls[..last], net[..last]);
      assert forall i :: 0 <= i < last ==> urls[..last][i] == urls[i] && urls[i] != urls[last];
      Put(rest, IMAGE_CACHE, urls[last], net[last].response)
  }

  /** The message handler. `net[i]` is what fetching `urls[i]` would give. */
  function HandleMessage(c: Caches, msg: Message, net: seq<Network>): (r: (Caches, Option<Ack>))
    requires msg.CacheImages? ==> |net| == |msg.urls|
    ensures msg == Unrecognised ==> r == (c, None)
    ensures msg == ClearCache ==> r == (Delete(c, IMAGE_CACHE), Some(Cleared))
    // CACHE_IMAGES is all or nothing: either every URL is stored and the count is the list's length ...
    ensures msg.CacheImages? && AddAllSucceeds(msg.urls, net) ==>
              && r.1 == Some(Cached(|msg.urls|))
              && (forall i :: 0 <= i < |msg.urls| ==> Match(r.0, IMAGE_CACHE, msg.urls[i]) == Some(net[i].response))
              && (forall n, u :: (n == IMAGE_CACHE ==> u !in msg.urls) ==> Match(r.0, n, u) == Match(c, n, u))
    // ... or nothing is stored and the reply reports failure
    ensures msg.CacheImages? && !AddAllSucceeds(msg.urls, net) ==> r == (Open(c, IMAGE_CACHE), Some(CacheFailed))
  {
    match msg
    case Unrecognised => (c, None)
    case ClearCache => (Delete(c, IMAGE_CACHE), Some(Cleared))
    case CacheImages(urls) =>
      var cache := Open(c, IMAGE_CACHE);
      if AddAllSucceeds(urls, net) then (PutAll(cache, urls, net), Some(Cached(|urls|)))
      else (cache, Some(CacheFailed))
  }

  /**
   * Five URLs of which two fail to fetch: the reply is a failure and nothing is
   * stored; a partially successful batch is never reported as a success.
   */
  lemma PartialBatchFails(c: Caches, urls: seq<string>, net: seq<Network>)
    requires |urls| == 5 && |net| == 5 && net[1] == Failed && net[3] == Failed
    ensures HandleMessage(c, CacheImages(urls), net) == (Open(c, IMAGE_CACHE), Some(CacheFailed))
  {
    assert !Storable(net[1]);
  }

  /** After CLEAR_CACHE no URL is cached, whatever was cached before. */
  lemma ClearCacheForgetsEverything(c: Caches, url: string)
    ensures Match(HandleMessage(c, ClearCache, []).0, IMAGE_CACHE, url).None?
  {
  }
}

=== FILE: strings.dfy ===
/**
 * The string operations the image cache and the test page rely on: JavaScript's `startsWith`,
 * `endsWith`, `includes`, ASCII case folding (what a case-insensitive regular
 * expression does to the ASCII letters of its pattern), `padStart` and the
 * decimal rendering of integers by `toString`.
 */
module Strings {

  /** `s.startsWith(prefix)`. */
  predicate StartsWith(s: string, prefix: string) {
    |prefix| <= |s| && s[..|prefix|] == prefix
  }

  /** `s.endsWith(suffix)`. */
  predicate EndsWith(s: string, suffix: string) {
    |suffix| <= |s| && s[|s| - |suffix|..] == suffix
  }

  /** `sub` occurs in `s` starting at index `i`. */
  predicate OccursAt(s: string, sub: string, i: nat)
    requires i + |sub| <= |s|
  {
    s[i..i + |sub|] == sub
  }

  /** `s.includes(sub)`: scans left to right for an occurrence. */
  function Includes(s: string, sub: string): (r: bool)
    ensures r <==> exists i: nat :: i + |sub| <= |s| && OccursAt(s, sub, i)
  {
    if |sub| > |s| then
      false
    else if s[..|sub|] == sub then
      assert OccursAt(s, sub, 0);
      true
    else
      var rest := Includes(s[1..], sub);
      assert forall i: nat :: i + |sub| <= |s| - 1 ==> (OccursAt(s[1..], sub, i) <==> OccursAt(s, sub, i + 1)) by {
        forall i: nat | i + |sub| <= |s| - 1
          ensures OccursAt(s[1..], sub, i) <==> OccursAt(s, sub, i + 1)
        {
          assert s[1..][i..i + |sub|] == s[i + 1..i + 1 + |sub|];
        }
      }
      if rest then
        var i: nat :| i + |sub| <= |s| - 1 && OccursAt(s[1..], sub, i);
        assert OccursAt(s, sub, i + 1);
        true
      else
        assert forall i: nat :: i + |sub| <= |s| && OccursAt(s, sub, i) ==> i >= 1 && OccursAt(s[1..], sub, i - 1);
        false
  }

  /** ASCII upper-case letters fold to lower case; every other character is kept. */
  function LowerAscii(c: char): char {
    if 'A' <= c <= 'Z' then (c as int + 32) as char else c
  }

  /** `s` with every ASCII letter folded to lower case. */
  function Lower(s: string): (r: string)
    ensures |r| == |s|
    ensures forall i :: 0 <= i < |s| ==> r[i] == LowerAscii(s[i])
  {
    seq(|s|, i requires 0 <= i < |s| => LowerAscii(s[i]))
  }

  /** `s.padStart(width, "0")`. */
  function PadStartZero(s: string, width: nat): (r: string)
    ensures |s| >= width ==> r == s
    ensures |s| < width ==> |r| == width && EndsWith(r, s)
    ensures forall i :: 0 <= i < |r| - |s| ==> r[i] == '0'
    decreases width - |s|
  {
    if |s| >= width then s else PadStartZero("0" + s, width)
  }

  predicate IsDigit(c: char) {
    '0' <= c <= '9'
  }

  predicate AllDigits(s: string) {
    forall i :: 0 <= i < |s| ==> IsDigit(s[i])
  }

  function DigitChar(d: nat): (c: char)
    requires d < 10
    ensures IsDigit(c)
  {
    (d + '0' as int) as char
  }

  function DigitValue(c: char): (d: nat)
    requires IsDigit(c)
    ensures d < 10 && DigitChar(d) == c
  {
    c as int - '0' as int
  }

  /** Decimal rendering of a natural number, most significant digit first, no leading zeros. */
  function NatToString(n: nat): (r: string)
    ensures |r| >= 1 && AllDigits(r)
    ensures n < 10 <==> |r| == 1
  {
    if n < 10 then [DigitChar(n)] else NatToString(n / 10) + [DigitChar(n % 10)]
  }

  /** `n.toString()` for an integer: a minus sign before the digits of a negative number. */
  function IntToString(n: int): (r: string)
    ensures n >= 0 ==> AllDigits(r) && |r| >= 1
    ensures n < 0 ==> |r| >= 2 && r[0] == '-'
  {
    if n < 0 then "-" + NatToString(-n) else NatToString(n)
  }

  /** Reads a string of decimal digits back as a number (the empty string reads as 0). */
  function ParseNat(s: string): nat
    requires AllDigits(s)
  {
    if |s| == 0 then 0 else ParseNat(s[..|s| - 1]) * 10 + DigitValue(s[|s| - 1])
  }

  /** Reading leading zeros changes nothing. */
  lemma {:induction false} ParseNatLeadingZero(s: string)
    requires AllDigits(s)
    ensures AllDigits("0" + s) && ParseNat("0" + s) == ParseNat(s)
  {
    if |s| > 0 {
      var t := "0" + s;
      assert t[..|t| - 1] == "0" + s[..|s| - 1];
      ParseNatLeadingZero(s[..|s| - 1]);
    }
  }

  /** The decimal rendering of `n` reads back as `n`. */
  lemma {:induction false} ParseNatToString(n: nat)
    ensures ParseNat(NatToString(n)) == n
  {
    if n >= 10 {
      var s := NatToString(n);
      assert s[..|s| - 1] == NatToString(n / 10);
      ParseNatToString(n / 10);
    }
  }
}

=== FILE: test_taking.dfy ===
/**
 * The test-taking page of src/pages/student/TestTaking.jsx, as a state machine:
 * loading the test, answering (each slot written once), the feedback pause and
 * auto-advance, the keyboard shortcuts over the two modal flags, the countdown
 * and `formatTime`. Server replies are oracles; navigation and the final
 * submission are effects the transitions return.
 */
module TestTaking {
  import opened Wrappers
  import opened Strings
  import Arith

  /** A question: its id and the ids of its answer options, in display order. */
  datatype Question = Question(questionId: int, answerIds: seq<int>)

  /** The test stored in session storage. */
  datatype Test = Test(testType: int, templateId: int, startedAt: string, langId: int, duration: int, questions: seq<Question>)

  /** The server's verdict on a submitted answer. */
  datatype Feedback = Feedback(isCorrect: bool, correctAnswerId: int)

  /** One recorded answer, as kept in the `answers` array and submitted at the end. */
  datatype Answer = Answer(questionId: int, langId: int, userAnswer: int, isCorrect: bool, correctAnswerId: int)

  /** The page's state variables. */
  datatype Session = Session(
    test: Option<Test>,
    index: nat,
    language: int,
    timeRemaining: int,
    answers: seq<Option<Answer>>,
    showImageModal: bool,
    showFeedback: bool,
    feedback: Option<Feedback>,
    showExitModal: bool)

  /** The payload of `finishTest`. */
  datatype Submission = Submission(testType: int, templateId: int, questions: seq<Answer>, startedAt: string)

  /** What a transition does beyond the state: nothing, leave for test selection, or finish the test. */
  datatype Effect = Stay | ExitToSelection | Finish(submission: Submission)

  /** The state before the stored test is read. */
  const BLANK := Session(None, 0, 1, 0, [], false, false, None, false)

  /** The shape every reachable state with a test has: one slot per question and a current question. */
  predicate Valid(s: Session) {
    s.test.Some? ==> |s.answers| == |s.test.value.questions| && s.index < |s.test.value.questions|
  }

  /**
   * The mount effect: without a stored test, leave for test selection; with
   * one, start at the first question with every slot empty and the full time.
   */
  function Start(stored: Option<Test>): (r: (Session, Effect))
    ensures stored.None? ==> r == (BLANK, ExitToSelection)
    ensures stored.Some? ==>
              && r.1 == Stay && r.0.test == stored && r.0.index == 0
              && r.0.timeRemaining == stored.value.duration && r.0.language == stored.value.langId
              && |r.0.answers| == |stored.value.questions|
              && (forall i :: 0 <= i < |r.0.answers| ==> r.0.answers[i].None?)
    // no dialog open and no feedback shown
    ensures !r.0.showFeedback && r.0.feedback.None? && !r.0.showImageModal && !r.0.showExitModal
    ensures stored.Some? && |stored.value.questions| > 0 ==> Valid(r.0)
  {
    match stored
    case None => (BLANK, ExitToSelection)
    case Some(t) => (BLANK.(test := stored, language := t.langId, timeRemaining := t.duration,
                            answers := seq(|t.questions|, _ => None)), Stay)
  }

  /** `answers.filter(a => a !== null)`: the recorded answers, in question order. */
  function Recorded(answers: seq<Option<Answer>>): (r: seq<Answer>)
    ensures |r| <= |answers|
    ensures forall a :: a in r <==> Some(a) in answers
    ensures |r| == CountRecorded(answers)
  {
    if |answers| == 0 then []
    else
      var rest := Recorded(answers[..|answers| - 1]);
      assert answers == answers[..|answers| - 1] + [answers[|answers| - 1]];
      match answers[|answers| - 1]
      case Some(a) => rest + [a]
      case None => rest
  }

  /** The number of recorded answers. */
  function CountRecorded(answers: seq<Option<Answer>>): nat {
    if |answers| == 0 then 0
    else CountRecorded(answers[..|answers| - 1]) + (if answers[|answers| - 1].Some? then 1 else 0)
  }

  lemma {:induction false} RecordedLength(answers: seq<Option<Answer>>)
    ensures |Recorded(answers)| == CountRecorded(answers)
  {
    if |answers| > 0 {
      RecordedLength(answers[..|answers| - 1]);
    }
  }

  /**
   * The filter keeps order and repeats: filtering a concatenation is the
   * concatenation of the filtered parts, a recorded slot gives its answer and
   * an empty slot gives nothing.
   */
  lemma {:induction false} RecordedAppend(x: seq<Option<Answer>>, y: seq<Option<Answer>>)
    ensures Recorded(x + y) == Recorded(x) + Recorded(y)
    ensures forall a :: Recorded([Some(a)]) == [a]
    ensures Recorded([None]) == []
    decreases |y|
  {
    RecordedSingle();
    if |y| > 0 {
      var n := |y| - 1;
      var front, last := y[..n], y[n];
      var tail := if last.Some? then [last.value] else [];
      assert y == front + [last];
      assert x + y == (x + front) + [last];
      calc {
        Recorded(x + y);
        Recorded((x + front) + [last]);
        { RecordedSnoc(x + front, last); }
        Recorded(x + front) + tail;
        { RecordedAppend(x, front); }
        (Recorded(x) + Recorded(front)) + tail;
        { assert (Recorded(x) + Recorded(front)) + tail == Recorded(x) + (Recorded(front) + tail); }
        Recorded(x) + (Recorded(front) + tail);
        { RecordedSnoc(front, last); }
        Recorded(x) + Recorded(y);
      }
    } else {
      assert x + y == x;
    }
  }

  /** One more slot at the end adds its answer when it holds one. */
  lemma RecordedSnoc(x: seq<Option<Answer>>, slot: Option<Answer>)
    ensures Recorded(x + [slot]) == Recorded(x) + if slot.Some? then [slot.value] else []
  {
    assert (x + [slot])[..|x|] == x;
  }

  /** A single slot gives its answer, or nothing when empty. */
  lemma RecordedSingle()
    ensures forall a :: Recorded([Some(a)]) == [a]
    ensures Recorded([None]) == []
  {
    forall a ensures Recorded([Some(a)]) == [a] {
      assert [Some(a)][..0] == [];
    }
    var empty: seq<Option<Answer>> := [None];
    assert empty[..0] == [];
  }

  /** Filling one empty slot records one more answer. */
  lemma {:induction false} FillingRecordsOneMore(answers: seq<Option<Answer>>, i: nat, a: Answer)
    requires i < |answers| && answers[i].None?
    ensures CountRecorded(answers[i := Some(a)]) == CountRecorded(answers) + 1
  {
    var n := |answers| - 1;
    var b := answers[i := Some(a)];
    assert b[..n] == if i < n then answers[..n][i := Some(a)] else answers[..n];
    if i < n {
      FillingRecordsOneMore(answers[..n], i, a);
    }
  }

  /** The submission `handleFinishTest` makes from an answers array. */
  function FinishWith(t: Test, answers: seq<Option<Answer>>): (r: Submission)
    ensures r.questions == Recorded(answers)
    ensures r.testType == t.testType && r.templateId == t.templateId && r.startedAt == t.startedAt
  {
    Submission(t.testType, t.templateId, Recorded(answers), t.startedAt)
  }

  /**
   * `selectAnswer(answerIndex)`, with `reply` the server's answer to the
   * submission (None when the request fails, which only raises an alert).
   * Ignored while feedback shows or before the test is loaded, when the current
   * slot is taken, and when the question has no option `answerIndex`.
   */
  function SelectAnswer(s: Session, answerIndex: int, reply: Option<Feedback>): (r: Session)
    ensures s.showFeedback || s.test.None? ==> r == s
    ensures s.index < |s.answers| && s.answers[s.index].Some? ==> r == s
    ensures (s.test.Some? && s.index < |s.test.value.questions|
             && !(0 <= answerIndex < |s.test.value.questions[s.index].answerIds|)) ==> r == s
    ensures reply.None? ==> r == s
    // an accepted answer is recorded in the current slot, and its feedback shows
    ensures (&& !s.showFeedback && s.test.Some?
             && s.index < |s.answers| && s.answers[s.index].None?
             && s.index < |s.test.value.questions|
             && 0 <= answerIndex < |s.test.value.questions[s.index].answerIds|
             && reply.Some?) ==>
              r == s.(answers := s.answers[s.index := Some(Answer(s.test.value.questions[s.index].questionId, s.language,
                                                                  s.test.value.questions[s.index].answerIds[answerIndex],
                                                                  reply.value.isCorrect, reply.value.correctAnswerId))],
                      showFeedback := true, feedback := reply)
    ensures |r.answers| == |s.answers|
    ensures r != s ==>
              && reply.Some? && r.showFeedback && r.feedback == reply
              && s.index < |s.answers| && s.answers[s.index].None?
              && s.test.Some? && s.index < |s.test.value.questions|
              && 0 <= answerIndex < |s.test.value.questions[s.index].answerIds|
              && r.answers == s.answers[s.index := r.answers[s.index]]
              && r.answers[s.index] == Some(Answer(s.test.value.questions[s.index].questionId, s.language,
                                                   s.test.value.questions[s.index].answerIds[answerIndex],
                                                   reply.value.isCorrect, reply.value.correctAnswerId))
              && r == s.(answers := r.answers, showFeedback := true, feedback := reply)
  {
    if s.showFeedback || s.test.None? then s
    else if s.index >= |s.answers| || s.answers[s.index].Some? then s
    else if s.index >= |s.test.value.questions| then s
    else
      var q := s.test.value.questions[s.index];
      if !(0 <= answerIndex < |q.answerIds|) then s
      else
        match reply
        case None => s
        case Some(fb) =>
          var a := Answer(q.questionId, s.language, q.answerIds[answerIndex], fb.isCorrect, fb.correctAnswerId);
          s.(answers := s.answers[s.index := Some(a)], showFeedback := true, feedback := reply)
  }

  /**
   * The auto-advance timeout after an answer: hide the feedback, then move to
   * the next question, or finish the test after the last one, submitting the
   * recorded answers including the one just given.
   */
  function Advance(s: Session): (r: (Session, Effect))
    requires Valid(s) && s.test.Some?
    ensures !r.0.showFeedback && r.0.feedback.None? && r.0.answers == s.answers && Valid(r.0)
    ensures s.index + 1 < |s.test.value.questions| ==> r.0.index == s.index + 1 && r.1 == Stay
    ensures s.index + 1 == |s.test.value.questions| ==> r.0.index == s.index && r.1 == Finish(FinishWith(s.test.value, s.answers))
    // the timer, the dialogs and the language are untouched
    ensures r.0 == s.(index := r.0.index, showFeedback := false, feedback := None)
  {
    var hidden := s.(showFeedback := false, feedback := None);
    if s.index < |s.test.value.questions| - 1 then
      (hidden.(index := s.index + 1), Stay)
    else
      (hidden, Finish(FinishWith(s.test.value, s.answers)))
  }

  /**
   * The timeout as written: it calls the `handleFinishTest` captured when the
   * answer was selected, which submits `captured`, the answers array from
   * before that answer was recorded.
   */
  function AdvanceAsWritten(s: Session, captured: seq<Option<Answer>>): (r: (Session, Effect))
    requires Valid(s) && s.test.Some?
    ensures r.0 == Advance(s).0
    ensures r.1.Finish? <==> Advance(s).1.Finish?
    ensures r.1.Finish? ==> r.1 == Finish(FinishWith(s.test.value, captured))
  {
    var (next, effect) := Advance(s);
    if effect.Finish? then (next, Finish(FinishWith(s.test.value, captured))) else (next, effect)
  }

  /**
   * Answering the last question: the timeout as written submits one answer
   * fewer than were recorded, leaving out the last one; the corrected Advance
   * submits them all.
   */
  lemma LastAnswerIsDropped(s: Session, answerIndex: int, fb: Feedback)
    requires Valid(s) && s.test.Some? && !s.showFeedback
    requires s.index + 1 == |s.test.value.questions| && s.answers[s.index].None?
    requires 0 <= answerIndex < |s.test.value.questions[s.index].answerIds|
    ensures var answered := SelectAnswer(s, answerIndex, Some(fb));
            && |AdvanceAsWritten(answered, s.answers).1.submission.questions| + 1
               == |Advance(answered).1.submission.questions|
            && answered.answers[s.index].value in Advance(answered).1.submission.questions
  {
    var answered := SelectAnswer(s, answerIndex, Some(fb));
    var a := answered.answers[s.index].value;
    FillingRecordsOneMore(s.answers, s.index, a);
    RecordedLength(s.answers);
    RecordedLength(answered.answers);
  }

  /** The smallest case: a one-question test answered once is submitted with no answers as written. */
  lemma OneQuestionExample(t: Test, fb: Feedback)
    requires |t.questions| == 1 && |t.questions[0].answerIds| >= 1
    ensures var s := Start(Some(t)).0;
            var answered := SelectAnswer(s, 0, Some(fb));
            && AdvanceAsWritten(answered, s.answers).1 == Finish(FinishWith(t, []))
            && |Advance(answered).1.submission.questions| == 1
  {
    var s := Start(Some(t)).0;
    assert s.answers == [None];
    var answered := SelectAnswer(s, 0, Some(fb));
    assert Recorded(answered.answers) == [answered.answers[0].value] by {
      assert answered.answers[..0] == [];
    }
    var empty: seq<Option<Answer>> := [None];
    assert Recorded(empty) == [] by {
      assert empty[..0] == [];
    }
  }

  /** Every answer slot written stays as written: `Extends(a, b)` when b only fills empty slots of a. */
  predicate Extends(a: seq<Option<Answer>>, b: seq<Option<Answer>>) {
    |a| == |b| && forall i :: 0 <= i < |a| && a[i].Some? ==> b[i] == a[i]
  }

  /** Selecting never overwrites a recorded answer and fills at most the current slot. */
  lemma SelectAnswerWritesOnce(s: Session, answerIndex: int, reply: Option<Feedback>)
    ensures var r := SelectAnswer(s, answerIndex, reply);
            && Extends(s.answers, r.answers)
            && forall i :: 0 <= i < |s.answers| && i != s.index ==> r.answers[i] == s.answers[i]
  {
  }

  // ---------------------------------------------------------------- keyboard

  /** The number of options of the current question (`currentQuestion?.answers?.length || 0`). */
  function AnswerCount(s: Session): nat {
    if s.test.Some? && s.index < |s.test.value.questions| then |s.test.value.questions[s.index].answerIds| else 0
  }

  /** The answer index a function key selects: F1 to F5 pick options 0 to 4. */
  function FunctionKeyIndex(key: string): (r: Option<nat>)
    ensures r.Some? <==> key in ["F1", "F2", "F3", "F4", "F5"]
    ensures r.Some? ==> r.value < 5 && key == ["F1", "F2", "F3", "F4", "F5"][r.value]
  {
    if key == "F1" then Some(0)
    else if key == "F2" then Some(1)
    else if key == "F3" then Some(2)
    else if key == "F4" then Some(3)
    else if key == "F5" then Some(4)
    else None
  }

  /** The Escape key: close the image, else close the exit dialog, else open the exit dialog. */
  function Escape(s: Session): (r: Session)
    ensures s.showImageModal ==> !r.showImageModal && r.showExitModal == s.showExitModal
    ensures !s.showImageModal && s.showExitModal ==> !r.showImageModal && !r.showExitModal
    ensures !s.showImageModal && !s.showExitModal ==> !r.showImageModal && r.showExitModal
    ensures r == s.(showImageModal := r.showImageModal, showExitModal := r.showExitModal)
  {
    if s.showImageModal then s.(showImageModal := false)
    else if s.showExitModal then s.(showExitModal := false)
    else s.(showExitModal := true)
  }

  /**
   * `handleKeyPress`: every key is ignored while feedback shows or before the
   * test is loaded; Fk answers option k-1 when the question has at least k
   * options; f/F toggles the image; Escape closes or opens a dialog; Enter
   * confirms leaving only while the exit dialog is open.
   */
  function HandleKey(s: Session, key: string, reply: Option<Feedback>): (r: (Session, Effect))
    ensures s.showFeedback || s.test.None? ==> r == (s, Stay)
    ensures r.1 == ExitToSelection <==> !s.showFeedback && s.test.Some? && key == "Enter" && s.showExitModal
    ensures !r.1.Finish?
    ensures !s.showFeedback && s.test.Some? && FunctionKeyIndex(key).Some? ==>
              r.0 == (if FunctionKeyIndex(key).value < AnswerCount(s) then SelectAnswer(s, FunctionKeyIndex(key).value, reply) else s)
    ensures !s.showFeedback && s.test.Some? && (key == "f" || key == "F") ==>
              r.0 == s.(showImageModal := !s.showImageModal)
    ensures !s.showFeedback && s.test.Some? && key == "Escape" ==> r.0 == Escape(s)
    // Enter, and every key outside the switch, leaves the session as it is
    ensures FunctionKeyIndex(key).None? && key != "f" && key != "F" && key != "Escape" ==> r.0 == s
    ensures r.0.answers == s.answers || (FunctionKeyIndex(key).Some? && r.0 == SelectAnswer(s, FunctionKeyIndex(key).value, reply))
  {
    if s.showFeedback || s.test.None? then (s, Stay)
    else
      match FunctionKeyIndex(key)
      case Some(k) => (if k < AnswerCount(s) then SelectAnswer(s, k, reply) else s, Stay)
      case None =>
        if key == "f" || key == "F" then (s.(showImageModal := !s.showImageModal), Stay)
        else if key == "Escape" then (Escape(s), Stay)
        else if key == "Enter" && s.showExitModal then (s, ExitToSelection)
        else (s, Stay)
  }

  /** From no dialog, Escape opens the exit dialog and a second Escape closes it again. */
  lemma EscapeTwiceRestores(s: Session)
    requires !s.showFeedback && s.test.Some? && !s.showImageModal && !s.showExitModal
    ensures HandleKey(s, "Escape", None).0.showExitModal
    ensures HandleKey(HandleKey(s, "Escape", None).0, "Escape", None).0 == s
  {
  }

  /** Escape then Enter from no dialog leaves the test: the dialog's confirmation. */
  lemma EscapeThenEnterExits(s: Session)
    requires !s.showFeedback && s.test.Some? && !s.showImageModal && !s.showExitModal
    ensures HandleKey(HandleKey(s, "Escape", None).0, "Enter", None).1 == ExitToSelection
  {
  }

  /** Every transition keeps the session's shape and never overwrites a recorded answer. */
  lemma KeysPreserveValidity(s: Session, key: string, reply: Option<Feedback>)
    requires Valid(s)
    ensures Valid(HandleKey(s, key, reply).0)
    ensures Extends(s.answers, HandleKey(s, key, reply).0.answers)
  {
  }

  // ---------------------------------------------------------------- mouse

  /**
   * A question-number button: `setCurrentQuestionIndex(k)`. The buttons are
   * disabled while feedback shows, and there is one per question.
   */
  function Jump(s: Session, k: nat): (r: Session)
    ensures s.showFeedback || s.test.None? || k >= |s.test.value.questions| ==> r == s
    ensures !s.showFeedback && s.test.Some? && k < |s.test.value.questions| ==> r.index == k
    ensures r == s.(index := r.index)
  {
    if s.showFeedback || s.test.None? || k >= |s.test.value.questions| then s
    else s.(index := k)
  }

  /** The clickable controls of the page. */
  datatype Click =
    | ExitButton            // the header's exit button
    | ImageClick            // the question's picture
    | OverlayClick          // the backdrop of the enlarged picture
    | ConfirmExit           // "yes, leave" in the exit dialog
    | CancelExit            // "no, continue" in the exit dialog
    | AnswerButton(option: int)
    | PageButton(target: nat)

  /**
   * A click. Before the test is loaded only the loading text is shown. The
   * dialog buttons exist only while the exit dialog is open; the answer and
   * question buttons are disabled in the cases SelectAnswer and Jump ignore.
   */
  function HandleClick(s: Session, click: Click, reply: Option<Feedback>): (r: (Session, Effect))
    ensures s.test.None? ==> r == (s, Stay)
    ensures r.1 == ExitToSelection <==> s.test.Some? && click == ConfirmExit && s.showExitModal
    ensures !r.1.Finish?
    ensures s.test.Some? && click == ExitButton ==> r.0 == s.(showExitModal := true)
    ensures s.test.Some? && click == CancelExit ==> r.0 == s.(showExitModal := false)
    ensures s.test.Some? && click == ImageClick ==> r.0 == s.(showImageModal := true)
    ensures s.test.Some? && click == OverlayClick ==> r.0 == s.(showImageModal := false)
    ensures click.PageButton? ==> r.0 == Jump(s, click.target)
    ensures click == ConfirmExit ==> r.0 == s
    ensures r.0.answers == s.answers || (click.AnswerButton? && r.0 == SelectAnswer(s, click.option, reply))
    // every rendered option's button sends its index to selectAnswer
    ensures s.test.Some? && click.AnswerButton? ==> r == (SelectAnswer(s, click.option, reply), Stay)
  {
    if s.test.None? then (s, Stay)
    else
      match click
      case ExitButton => (s.(showExitModal := true), Stay)
      case ImageClick => (s.(showImageModal := true), Stay)
      case OverlayClick => (s.(showImageModal := false), Stay)
      case ConfirmExit => if s.showExitModal then (s, ExitToSelection) else (s, Stay)
      case CancelExit => (s.(showExitModal := false), Stay)
      case AnswerButton(i) => (SelectAnswer(s, i, reply), Stay)
      case PageButton(k) => (Jump(s, k), Stay)
  }

  /** Clicks keep the session's shape and never overwrite a recorded answer. */
  lemma ClicksPreserveValidity(s: Session, click: Click, reply: Option<Feedback>)
    requires Valid(s)
    ensures Valid(HandleClick(s, click, reply).0)
    ensures Extends(s.answers, HandleClick(s, click, reply).0.answers)
  {
  }

  /**
   * The mouse and the keyboard agree where they overlap: an answer button does
   * what its function key does, the dialog's buttons do what Enter and Escape do.
   */
  lemma ClicksMatchKeys(s: Session, k: nat, reply: Option<Feedback>)
    requires !s.showFeedback && s.test.Some? && k < 5 && k < AnswerCount(s)
    ensures HandleClick(s, AnswerButton(k), reply) == HandleKey(s, ["F1", "F2", "F3", "F4", "F5"][k], reply)
    ensures s.showExitModal ==> HandleClick(s, ConfirmExit, reply) == HandleKey(s, "Enter", reply)
    ensures s.showExitModal && !s.showImageModal ==> HandleClick(s, CancelExit, reply) == HandleKey(s, "Escape", reply)
  {
    var key := ["F1", "F2", "F3", "F4", "F5"][k];
    assert FunctionKeyIndex(key) == Some(k);
  }

  /**
   * The question buttons let the test be finished with questions unanswered:
   * jumping to the last question and answering it submits a single answer.
   */
  lemma SkipToLastFinishes(t: Test, fb: Feedback)
    requires |t.questions| >= 2 && |t.questions[|t.questions| - 1].answerIds| >= 1
    ensures var last := |t.questions| - 1;
            var s := Jump(Start(Some(t)).0, last);
            var answered := SelectAnswer(s, 0, Some(fb));
            && Advance(answered).1.Finish?
            && |Advance(answered).1.submission.questions| == 1
  {
    var last := |t.questions| - 1;
    var s0 := Start(Some(t)).0;
    var s := Jump(s0, last);
    var answered := SelectAnswer(s, 0, Some(fb));
    FillingRecordsOneMore(s.answers, last, answered.answers[last].value);
    assert CountRecorded(s.answers) == 0 by {
      NoneRecorded(s.answers);
    }
    RecordedLength(answered.answers);
  }

  /** Empty slots record nothing. */
  lemma {:induction false} NoneRecorded(answers: seq<Option<Answer>>)
    requires forall i :: 0 <= i < |answers| ==> answers[i].None?
    ensures CountRecorded(answers) == 0
  {
    if |answers| > 0 {
      NoneRecorded(answers[..|answers| - 1]);
    }
  }

  // ---------------------------------------------------------------- timer

  /**
   * One tick of the countdown. The interval runs only with a loaded test and
   * time left; the tick at one second (or less) sets the time to zero and
   * finishes the test, any other tick counts down by one.
   */
  function Tick(s: Session): (r: (Session, Effect))
    ensures s.test.None? || s.timeRemaining <= 0 ==> r == (s, Stay)
    ensures s.test.Some? && s.timeRemaining > 1 ==> r == (s.(timeRemaining := s.timeRemaining - 1), Stay)
    ensures s.test.Some? && s.timeRemaining == 1 ==>
              r == (s.(timeRemaining := 0), Finish(FinishWith(s.test.value, s.answers)))
  {
    if s.test.None? || s.timeRemaining <= 0 then (s, Stay)
    else if s.timeRemaining <= 1 then (s.(timeRemaining := 0), Finish(FinishWith(s.test.value, s.answers)))
    else (s.(timeRemaining := s.timeRemaining - 1), Stay)
  }

  /** `n` ticks in a row: the final state and how many times the test was finished. */
  function Ticks(s: Session, n: nat): (Session, nat)
    decreases n
  {
    if n == 0 then (s, 0)
    else
      var (next, effect) := Tick(s);
      var (last, finishes) := Ticks(next, n - 1);
      (last, finishes + (if effect.Finish? then 1 else 0))
  }

  /**
   * With `d` seconds on the clock, the countdown reaches zero after exactly `d`
   * ticks and finishes the test exactly once, on the last of them; further
   * ticks do nothing.
   */
  lemma {:induction false} CountdownFinishesOnce(s: Session, n: nat)
    requires s.test.Some? && s.timeRemaining >= 0
    ensures n <= s.timeRemaining ==> Ticks(s, n).0.timeRemaining == s.timeRemaining - n
    ensures n < s.timeRemaining ==> Ticks(s, n).1 == 0
    ensures n >= s.timeRemaining ==> Ticks(s, n).0.timeRemaining == 0
    ensures n >= s.timeRemaining > 0 ==> Ticks(s, n).1 == 1
    ensures s.timeRemaining == 0 ==> Ticks(s, n) == (s, 0)
    decreases n
  {
    if n > 0 {
      var (next, effect) := Tick(s);
      CountdownFinishesOnce(next, n - 1);
    }
  }

  // ---------------------------------------------------------------- formatTime

  /** JavaScript's `%`: the remainder takes the sign of the dividend. */
  function JsRem(a: int, b: int): (r: int)
    requires b > 0
    ensures a >= 0 ==> 0 <= r < b && r == a % b
    ensures a < 0 ==> -b < r <= 0
    ensures (a - r) % b == 0
  {
    if a >= 0 then
      Arith.MultipleMod(b, a / b);
      a % b
    else
      var r := -((-a) % b);
      assert a - r == b * -((-a) / b);
      Arith.MultipleMod(b, -((-a) / b));
      r
  }

  /** `formatTime(seconds)`: whole minutes, a colon, and the seconds padded to two digits. */
  function FormatTime(seconds: int): (r: string)
    ensures seconds >= 0 ==> r == NatToString(seconds / 60) + ":" + TwoDigits(seconds % 60)
    ensures seconds >= 0 ==> ParseClock(r) == Some(seconds)
  {
    var r := IntToString(seconds / 60) + ":" + PadStartZero(IntToString(JsRem(seconds, 60)), 2);
    if seconds < 0 then r
    else
      ClockShows(seconds);
      r
  }

  /** The first index of `c` in `s`. */
  function IndexOf(s: string, c: char): (r: Option<nat>)
    ensures r.Some? ==> r.value < |s| && s[r.value] == c && forall i :: 0 <= i < r.value ==> s[i] != c
    ensures r.None? ==> forall i :: 0 <= i < |s| ==> s[i] != c
  {
    if |s| == 0 then None
    else if s[0] == c then Some(0)
    else
      match IndexOf(s[1..], c)
      case Some(i) => Some(i + 1)
      case None => None
  }

  /** Reads a clock "m:ss" back as a number of seconds. */
  function ParseClock(t: string): Option<int> {
    match IndexOf(t, ':')
    case None => None
    case Some(k) => ClockFields(t[..k], t[k + 1..])
  }

  /** The minutes and seconds fields on either side of the colon. */
  function ClockFields(mins: string, secs: string): Option<int> {
    if |mins| >= 1 && AllDigits(mins) && |secs| == 2 && AllDigits(secs) && ParseNat(secs) < 60
    then Some(ParseNat(mins) * 60 + ParseNat(secs))
    else None
  }

  /**
   * For a non-negative time, formatTime shows s div 60 minutes and a two-digit
   * seconds field holding s mod 60, and the clock reads back as the time it shows.
   */
  lemma FormatTimeRoundTrip(seconds: int)
    requires seconds >= 0
    ensures var t := FormatTime(seconds);
            && t == NatToString(seconds / 60) + ":" + TwoDigits(seconds % 60)
            && |TwoDigits(seconds % 60)| == 2
            && ParseClock(t) == Some(seconds)
  {
    TwoDigitsReadBack(seconds % 60);
  }

  /** The clock text for a non-negative time, with JavaScript's operators replaced by their non-negative readings. */
  lemma ClockShows(seconds: int)
    requires seconds >= 0
    ensures var m, ss := NatToString(seconds / 60), TwoDigits(seconds % 60);
            && IntToString(seconds / 60) + ":" + PadStartZero(IntToString(JsRem(seconds, 60)), 2) == m + ":" + ss
            && ParseClock(m + ":" + ss) == Some(seconds)
  {
    var mins, secs := seconds / 60, seconds % 60;
    assert JsRem(seconds, 60) == secs;
    var m, ss := NatToString(mins), TwoDigits(secs);
    assert IntToString(mins) == m;
    assert PadStartZero(IntToString(secs), 2) == ss;
    TwoDigitsReadBack(secs);
    ParseNatToString(mins);
    calc {
      ParseClock(m + ":" + ss);
      { ClockReadBack(m, ss); }
      Some(ParseNat(m) * 60 + ParseNat(ss));
      Some(seconds);
    }
  }

  /** The seconds field: `secs.toString().padStart(2, "0")`. */
  function TwoDigits(secs: nat): string {
    PadStartZero(NatToString(secs), 2)
  }

  lemma TwoDigitsReadBack(secs: nat)
    requires secs < 60
    ensures |TwoDigits(secs)| == 2 && AllDigits(TwoDigits(secs)) && ParseNat(TwoDigits(secs)) == secs
  {
    var d := NatToString(secs);
    if secs >= 10 {
      assert d == NatToString(secs / 10) + [DigitChar(secs % 10)];
      assert |d| == 2;
    } else {
      assert |d| == 1;
      assert TwoDigits(secs) == "0" + d;
      ParseNatLeadingZero(d);
    }
    ParseNatToString(secs);
  }

  /** Minutes digits, a colon and a two-digit field split back at the colon. */
  lemma ClockReadBack(m: string, ss: string)
    requires |m| >= 1 && AllDigits(m) && |ss| == 2 && AllDigits(ss) && ParseNat(ss) < 60
    ensures ParseClock(m + ":" + ss) == Some(ParseNat(m) * 60 + ParseNat(ss))
  {
    ClockSplitsAtColon(m, ss);
    ClockFieldsValue(m, ss);
  }

  /** "m:ss" with digit minutes is read as the fields m and ss. */
  lemma ClockSplitsAtColon(m: string, ss: string)
    requires AllDigits(m)
    ensures ParseClock(m + ":" + ss) == ClockFields(m, ss)
  {
    ColonAfterDigits(m, ss);
    ColonSplits(m, ss);
  }

  /** Well-formed fields give minutes times 60 plus seconds. */
  lemma ClockFieldsValue(m: string, ss: string)
    requires |m| >= 1 && AllDigits(m) && |ss| == 2 && AllDigits(ss) && ParseNat(ss) < 60
    ensures ClockFields(m, ss) == Some(ParseNat(m) * 60 + ParseNat(ss))
  {
  }

  /** The text on either side of the colon at position |m| of "m:ss". */
  lemma ColonSplits(m: string, ss: string)
    ensures (m + ":" + ss)[..|m|] == m && (m + ":" + ss)[|m| + 1..] == ss
  {
  }

  /** The first colon of "m:ss" is the one after the minutes digits. */
  lemma ColonAfterDigits(m: string, ss: string)
    requires AllDigits(m)
    ensures IndexOf(m + ":" + ss, ':') == Some(|m|)
  {
    var t := m + ":" + ss;
    forall i | 0 <= i < |m|
      ensures t[i] != ':'
    {
      assert t[i] == m[i] && IsDigit(m[i]);
    }
    assert t[|m|] == ':';
    IndexOfFirst(t, ':', |m|);
  }

  /** IndexOf finds the first occurrence. */
  lemma {:induction false} IndexOfFirst(s: string, c: char, k: nat)
    requires k < |s| && s[k] == c && forall i :: 0 <= i < k ==> s[i] != c
    ensures IndexOf(s, c) == Some(k)
  {
    if k > 0 {
      IndexOfFirst(s[1..], c, k - 1);
    }
  }
}

=== FILE: wrappers.dfy ===
/** Optional values, the model's stand-in for JavaScript's `null`/`undefined` results. */
module Wrappers {

  datatype Option<+T> = None | Some(value: T) {

    /** Returns the value held in Some, or `default` when None. */
    function GetOr(default: T): T {
      match this
      case Some(v) => v
      case None => default
    }
  }
}
